=== FILE: README.md ===
# Fleet ledger: a Dafny model

A Dafny model of the core of the fleet ledger Android app. The app records trips: a vehicle number, a driver, an amount and an incentive, grouped under transport partners. It keeps a per-partner commission and remarks and a set of vehicle numbers, and it writes PDF reports with subtotals, payables and a summary.

The model covers four parts of the app:

- **The value types** (`FormData`, `PartnerMetaData`): `data_classes.dfy`.
- **The persisted store** (`FormDataStore`): `form_data_store.dfy`, with properties in `store_properties.dfy`. The state is three parts: an ordered ledger (partner to list of entries), the partner metadata, and the vehicle set. Each `suspend` transition is one pure function from state to state. In the source each is one DataStore `edit`, except `addFormData`, which runs two: one for the ledger and the vehicle set, then `addPartnerMetaData` for the metadata.
- **The view model** (`FormViewModel`): `form_view_model.dfy`. Key normalisation, number parsing, the duplicate-incentive guards and the field clearing wrap the store transitions. Each wrapper either shows a message and leaves the state alone, or performs one transition. The add screen's and the edit dialog's blank-field checks are modelled as functions in front of the wrappers.
- **The report** (`PdfFunctions.createPdf`): `pdf_functions.dfy`. A method computes the file name, the heading, one block per partner, and the summary table. A block holds the rows with their shading, the subtotals, commission and payable, and the remarks row.

Supporting modules:

- `common.dfy`: `Option` and `Result`.
- `text.dfy`: trim, ASCII case mapping, character replace and `substringBefore`.
- `amounts.dfy`: amounts as whole paise, parsed from and printed as decimals.
- `linked_map.dfy`: the insertion-ordered map the ledger is.

Kotlin maps preserve insertion order, and the report walks partners in that order. The ledger is therefore an association list. `put` on a known key keeps its place, and a new key goes last.

Where the code behaves differently from what its names suggest, the model follows the code:

- Every added vehicle number goes into the vehicle set, not only those with an incentive.
- Removal and edit match entries by vehicle number and act on every match, not on one equal entry.
- Every removal drops the vehicle from the set, whether or not the partner's list empties, and even if another entry or partner still holds that vehicle.
- `createPdf` writes a report for an empty ledger too. Only `shareIndividualPDF` refuses an absent or empty partner.
- There is no per-entry commission: commission lives only in the partner metadata.

## Model

| member | source | states |
|---|---|---|
| DataClasses.Defaults | app/src/main/java/com/example/fleetapp/dataclasses/FormData.kt:7-18 | An entry built without an incentive has incentive 0, and `PartnerMetaData()` is commission 0 with empty remarks. |
| Text.Trim | app/src/main/java/com/example/fleetapp/viewmodels/FormViewModel.kt:66-70 | The result has no whitespace at either end, is empty exactly when the input is blank, and is no longer than the input. |
| Text.TrimKeepsInnerText | app/src/main/java/com/example/fleetapp/viewmodels/FormViewModel.kt:66-70 | The trimmed text is a contiguous slice of the input, and only blanks lie before and after it. |
| Text.TrimOfTrimmed | app/src/main/java/com/example/fleetapp/viewmodels/FormViewModel.kt:77-78 | Trimming a string that has no whitespace at either end gives it back unchanged. |
| Text.TrimTrailingBlank | app/src/main/java/com/example/fleetapp/viewmodels/FormViewModel.kt:72-78 | A vehicle number typed with a trailing blank trims to the bare number, so the stored number and the typed one differ. |
| Text.Lowercase | app/src/main/java/com/example/fleetapp/viewmodels/FormViewModel.kt:66 | No upper-case letter survives, every character that was not upper-case is kept at its position, and the length is kept. |
| Text.LowercaseIdempotent | app/src/main/java/com/example/fleetapp/viewmodels/FormViewModel.kt:66 | Lower-casing an already lower-cased text changes nothing. |
| Text.LowercaseOfCapitalized | app/src/main/java/com/example/fleetapp/viewmodels/FormViewModel.kt:66-67 | Lower-casing undoes the capitalisation of the first character, so a key and its lower-cased source agree ignoring case. |
| Text.CapitalizeFirst | app/src/main/java/com/example/fleetapp/viewmodels/FormViewModel.kt:67 | Only the first character changes, and only a lower-case one: it is title-cased. |
| Text.Replace | app/src/main/java/com/example/fleetapp/utilities/PdfFunctions.kt:47-48 | Every occurrence of `from` becomes `to`, and every other character and the length are kept. When `from` differs from `to`, `from` no longer occurs. |
| Text.SubstringBefore | app/src/main/java/com/example/fleetapp/utilities/PdfFunctions.kt:46 | The result is the longest prefix without `c`; it is followed by `c` when shorter than the input, and is the whole input when `c` does not occur. |
| Amounts.ParseAmount | app/src/main/java/com/example/fleetapp/viewmodels/FormViewModel.kt:69-70 | Empty text does not parse; text that parses holds only digits, signs and the point; a negative value needs a leading minus. |
| Amounts.ParseWellFormed | app/src/main/java/com/example/fleetapp/viewmodels/FormViewModel.kt:69-70 | Every well-formed decimal parses to its value. Such a decimal has an optional `+` or `-`, digits, and an optional point with at most two fraction digits, with at least one digit in all. |
| Amounts.ParseShapeOf | app/src/main/java/com/example/fleetapp/viewmodels/FormViewModel.kt:69-70 | Text that parses has the shape read off by `ShapeOf`, which is well formed, and the parsed value is that shape's value. |
| Amounts.ParseOnlyWellFormed | app/src/main/java/com/example/fleetapp/viewmodels/FormViewModel.kt:69-70 | Only the text of a well-formed decimal parses, and it parses to that decimal's value; with ParseWellFormed this characterises the accepted texts in both directions. |
| Amounts.FormatAmount | app/src/main/java/com/example/fleetapp/components/FormDataList.kt:78-79 | The text always holds a decimal point and starts with a minus exactly when the amount is negative. |
| Amounts.DigitsRoundTrip | app/src/main/java/com/example/fleetapp/components/FormDataList.kt:78-79 | The digits printed for a whole number read back as that number. |
| Amounts.FormatThenParse | app/src/main/java/com/example/fleetapp/components/FormDataList.kt:238-239 | An amount printed into the edit dialog parses back to the same amount, so an unedited field saves the stored value. |
| LinkedMap.Get | app/src/main/java/com/example/fleetapp/datastore/FormDataStore.kt:49 | There is no value exactly when the key is not among the map's keys. |
| LinkedMap.Put | app/src/main/java/com/example/fleetapp/datastore/FormDataStore.kt:51 | The key is bound to the new value; an existing key keeps its position and a new key goes last. |
| LinkedMap.Remove | app/src/main/java/com/example/fleetapp/datastore/FormDataStore.kt:69 | An absent key leaves the map as it was; a present key loses one binding. |
| LinkedMap.RemoveCutsFirstBinding | app/src/main/java/com/example/fleetapp/datastore/FormDataStore.kt:69 | Removing a present key cuts exactly its binding out, and the other pairs keep their order. |
| LinkedMap.PutAppends | app/src/main/java/com/example/fleetapp/datastore/FormDataStore.kt:51 | A put of a new key appends its pair after all existing pairs. |
| LinkedMap.PutOverwrites | app/src/main/java/com/example/fleetapp/datastore/FormDataStore.kt:51 | A put of a present key overwrites its pair in place, and every other position is unchanged. |
| LinkedMap.RemoveAfterPutNew | app/src/main/java/com/example/fleetapp/datastore/FormDataStore.kt:67-69 | Binding an absent key and then removing it gives the original map back. |
| LinkedMap.RemoveAfterPutPresent | app/src/main/java/com/example/fleetapp/datastore/FormDataStore.kt:67-69 | Rebinding a present key and then removing it cuts that key's pair out of the original map. |
| LinkedMap.PutOther | app/src/main/java/com/example/fleetapp/datastore/FormDataStore.kt:51 | A put leaves every other key's binding as it was. |
| LinkedMap.RemoveOther | app/src/main/java/com/example/fleetapp/datastore/FormDataStore.kt:69 | A remove leaves every other key's binding as it was. |
| LinkedMap.RemoveUnique | app/src/main/java/com/example/fleetapp/datastore/FormDataStore.kt:69 | On a map without repeated keys, the removed key is unbound afterwards and no key repeats. |
| LinkedMap.PutUnique | app/src/main/java/com/example/fleetapp/datastore/FormDataStore.kt:51 | A put never creates a repeated key. |
| FormDataStore.DeleteAllFormData | app/src/main/java/com/example/fleetapp/datastore/FormDataStore.kt:25-41 | With the three keys removed, the ledger, the metadata and the vehicle set all read back empty. |
| FormDataStore.WithoutVehicle | app/src/main/java/com/example/fleetapp/datastore/FormDataStore.kt:67 | An entry is kept exactly when it was there and its vehicle number differs from the given one. |
| FormDataStore.ReplaceVehicle | app/src/main/java/com/example/fleetapp/datastore/FormDataStore.kt:101-103 | Exactly the entries holding the old vehicle number become the new entry, in place. Without a match the list is unchanged. No foreign entry appears. When the new entry has another vehicle number, the old number no longer occurs. |
| FormDataStore.ReplaceVehicleIdempotent | app/src/main/java/com/example/fleetapp/datastore/FormDataStore.kt:101-103 | Applying the same edit twice gives the same list as applying it once. |
| FormDataStore.AddPartnerMetaData | app/src/main/java/com/example/fleetapp/datastore/FormDataStore.kt:117-127 | The partner's metadata becomes commission 0 with empty remarks; every other partner's metadata is unchanged. |
| FormDataStore.AddFormData | app/src/main/java/com/example/fleetapp/datastore/FormDataStore.kt:43-59 | The entry is appended to the partner's list. An existing partner keeps its place and a new one goes last. Other partners' lists are unchanged. The vehicle number joins the set whatever the incentive. The partner's metadata is reset to the defaults. Unique keys are preserved. |
| FormDataStore.RemoveFormData | app/src/main/java/com/example/fleetapp/datastore/FormDataStore.kt:61-85 | The list keeps exactly the entries with another vehicle number. When none are left, the partner and its metadata are removed. Other partners are untouched. The vehicle number always leaves the set. |
| FormDataStore.RemoveFormDataPositions | app/src/main/java/com/example/fleetapp/datastore/FormDataStore.kt:61-78 | An absent partner leaves the ledger exactly as it was. A partner with entries left keeps its position with the filtered list. A partner with none left is cut out, and the other partners keep their order. |
| FormDataStore.EditFormData | app/src/main/java/com/example/fleetapp/datastore/FormDataStore.kt:95-115 | The partner is bound to its list with matching entries replaced; an absent partner is bound to an empty list, appended last. The set changes only when the vehicle number changes. The metadata is untouched. |
| FormDataStore.UpdateCommissionAndRemarks | app/src/main/java/com/example/fleetapp/datastore/FormDataStore.kt:129-141 | A partner with metadata gets the new commission and remarks; for any other partner the state is unchanged. |
| StoreProperties.PutTotal | app/src/main/java/com/example/fleetapp/datastore/FormDataStore.kt:51 | Rebinding a partner changes the entry count by the difference of the two lists' lengths. |
| StoreProperties.RemoveTotal | app/src/main/java/com/example/fleetapp/datastore/FormDataStore.kt:69 | Unbinding a partner lowers the entry count by its list's length. |
| StoreProperties.AddFormDataAddsOneEntry | app/src/main/java/com/example/fleetapp/datastore/FormDataStore.kt:49-51 | An add raises the number of entries over all partners by exactly one. |
| StoreProperties.WithoutVehicleLength | app/src/main/java/com/example/fleetapp/datastore/FormDataStore.kt:67 | Filtering removes exactly as many entries as carry the vehicle number. |
| StoreProperties.RemoveFormDataRemovesMatches | app/src/main/java/com/example/fleetapp/datastore/FormDataStore.kt:67-78 | A removal lowers the entry count by the number of the partner's entries with that vehicle number, not by one. |
| StoreProperties.WithoutVehicleConcat | app/src/main/java/com/example/fleetapp/datastore/FormDataStore.kt:67 | Filtering distributes over concatenation, so the kept entries stay in their original order. |
| StoreProperties.GetIsBinding | app/src/main/java/com/example/fleetapp/datastore/FormDataStore.kt:49 | A value found for a partner is one of the ledger's pairs. |
| StoreProperties.PutPairs | app/src/main/java/com/example/fleetapp/datastore/FormDataStore.kt:51 | After a put, every pair is the new binding or an old pair. |
| StoreProperties.RemovePairs | app/src/main/java/com/example/fleetapp/datastore/FormDataStore.kt:69 | After a remove, every pair is an old pair. |
| StoreProperties.AddFormDataKeepsListsNonEmpty | app/src/main/java/com/example/fleetapp/datastore/FormDataStore.kt:49-51 | If no partner had an empty list before an add, none has one after it. |
| StoreProperties.RemoveFormDataKeepsListsNonEmpty | app/src/main/java/com/example/fleetapp/datastore/FormDataStore.kt:67-69 | A removal never leaves a partner with an empty list. |
| StoreProperties.EditAbsentPartnerBindsEmptyList | app/src/main/java/com/example/fleetapp/datastore/FormDataStore.kt:101-103 | Editing an unknown partner binds it to an empty list, so an edit can leave an empty list behind where add and remove cannot. |
| StoreProperties.AddFormDataKeepsVehiclesCovered | app/src/main/java/com/example/fleetapp/datastore/FormDataStore.kt:53-56 | If every vehicle number in the ledger was in the set before an add, it still is after it. |
| StoreProperties.RemoveFormDataDropsSharedVehicle | app/src/main/java/com/example/fleetapp/datastore/FormDataStore.kt:80-83 | Two partners share vehicle V1; removing V1 from one of them drops V1 from the set although the other partner still holds it. |
| StoreProperties.EditUnchangedEntryOverwritesSameVehicle | app/src/main/java/com/example/fleetapp/datastore/FormDataStore.kt:101-103 | Editing the first of two entries for the same vehicle overwrites both, so the list becomes two copies of the edited entry. |
| StoreProperties.EditUnchangedEntryKeepsList | app/src/main/java/com/example/fleetapp/datastore/FormDataStore.kt:101-113 | Saving an entry unchanged leaves the list and the vehicle set as they were, provided every entry with that vehicle number equals it. |
| StoreProperties.EditWithoutMatchKeepsList | app/src/main/java/com/example/fleetapp/datastore/FormDataStore.kt:101-103 | An edit whose old vehicle number matches no entry leaves a present partner's list as it was. |
| PdfFunctions.SanitizeDate | app/src/main/java/com/example/fleetapp/utilities/PdfFunctions.kt:47-48 | The sanitised date has the same length and contains no `/`. Each `/` becomes `-`, and every other character is kept at its position. |
| PdfFunctions.LocalTimeText | app/src/main/java/com/example/fleetapp/utilities/PdfFunctions.kt:46 | The printed time contains no `/`, has a colon after the hour, and contains a point exactly when there are nanoseconds. |
| PdfFunctions.TimeToken | app/src/main/java/com/example/fleetapp/utilities/PdfFunctions.kt:46 | The token contains neither `:` nor `.`. It is the part of the time before the first `.`, with every `:` turned into `-`: when shorter than the time, a `.` follows it there. It adds no `/`. |
| PdfFunctions.TimeTokenOfLocalTime | app/src/main/java/com/example/fleetapp/utilities/PdfFunctions.kt:46 | For a valid clock reading (hour below 24, minute and second below 60, nanoseconds below 10^9) the token is `HH-mm`, with `-ss` added unless seconds and nanoseconds are zero; no fraction of a second survives. |
| PdfFunctions.FileName | app/src/main/java/com/example/fleetapp/utilities/PdfFunctions.kt:47-51 | The name starts with the company name and ends in `.pdf`. Its length is the parts' lengths plus the separators. For a time text without `/` (every printed clock reading is one), no `/` follows the company name. |
| PdfFunctions.FileNameParts | app/src/main/java/com/example/fleetapp/utilities/PdfFunctions.kt:46-51 | The name reads, in order: the company name, `--`, the sanitised start date, `--`, the sanitised end date, `--`, the time token, and `.pdf`. |
| PdfFunctions.RemarksRow | app/src/main/java/com/example/fleetapp/utilities/PdfFunctions.kt:214-227 | The remarks row is left out exactly when the partner has metadata with empty remarks. A partner without metadata gets a row with empty text. |
| PdfFunctions.RenderPartner | app/src/main/java/com/example/fleetapp/utilities/PdfFunctions.kt:104-227 | Row i holds entry i and is light grey exactly when i is odd. The subtotals are the list-order sums of amounts and incentives. The commission is the metadata's, or 0. Payable is amount plus incentive minus commission. |
| PdfFunctions.GrandPayableIsSumOfPayables | app/src/main/java/com/example/fleetapp/utilities/PdfFunctions.kt:256 | The grand payable (grand amount plus grand incentive minus grand commission) equals the sum of the partners' payable rows. |
| PdfFunctions.GrandCommissionIgnoresAbsentPartners | app/src/main/java/com/example/fleetapp/utilities/PdfFunctions.kt:176-179 | Changing the metadata of a partner with no entries in the ledger does not change the grand commission. |
| PdfFunctions.CreatePdf | app/src/main/java/com/example/fleetapp/utilities/PdfFunctions.kt:35-282 | One block per ledger partner, in ledger order, each rendered as above. The summary is present exactly when the report is not individual, and holds the sums over the ledger's partners only. The heading has the title suffix exactly when the report is not individual. The date line shows the dates as given. |
| PdfFunctions.TwoTripExample | app/src/main/java/com/example/fleetapp/utilities/PdfFunctions.kt:104-196 | Trips of 100 and 200 with incentive 50 and commission 30 give subtotals 300/50 and payable 320; empty remarks give no remarks row. |
| FormViewModel.PartnerKey | app/src/main/java/com/example/fleetapp/viewmodels/FormViewModel.kt:66-67 | The key has no surrounding whitespace and is empty exactly for a blank name. Its first character is not lower-case and no other is upper-case. Ignoring case, it equals the trimmed name. |
| FormViewModel.PartnerKeyIdempotent | app/src/main/java/com/example/fleetapp/viewmodels/FormViewModel.kt:66-67 | Normalising a key again gives the same key. |
| FormViewModel.SamePartnerKey | app/src/main/java/com/example/fleetapp/viewmodels/FormViewModel.kt:66-67 | Two names share a key exactly when they agree after trimming and lower-casing. |
| FormViewModel.ClearFields | app/src/main/java/com/example/fleetapp/viewmodels/FormViewModel.kt:173-186 | The vehicle, driver, amount, incentive and error fields become empty; the partner name only on request; the dates and the store are kept. |
| FormViewModel.ValidateAdd | app/src/main/java/com/example/fleetapp/viewmodels/FormViewModel.kt:66-81 | The add is rejected for invalid numbers exactly when amount or incentive fails to parse, a blank incentive included. It is rejected as a duplicate incentive exactly when the untrimmed vehicle text is in the set and the incentive is positive. Otherwise it yields the normalised key and the trimmed entry. |
| FormViewModel.AddFormData | app/src/main/java/com/example/fleetapp/viewmodels/FormViewModel.kt:63-91 | A rejection only sets the error message. A success stores through the store's add under the key, then clears the entry fields and the error but keeps the partner name. |
| FormViewModel.SubmitAddForm | app/src/main/java/com/example/fleetapp/screens/FormScreen.kt:142-150 | A blank partner, date, vehicle, driver or amount only shows `fill_all_field`, and exactly then. Otherwise the result is exactly the view model's `addFormData` on the same state. |
| FormViewModel.SubmitAddFormStoresTrimmedEntry | app/src/main/java/com/example/fleetapp/screens/FormScreen.kt:142-150 | An add that passes the screen's check stores, as the last entry of a non-empty key's list, an entry whose vehicle and driver are non-empty and trimmed. |
| FormViewModel.AddFormDataErrorChangesNothing | app/src/main/java/com/example/fleetapp/viewmodels/FormViewModel.kt:66-81 | An error is shown exactly when the add's validation fails, and then the store and the fields are as before. |
| FormViewModel.DuplicateIncentiveRejected | app/src/main/java/com/example/fleetapp/viewmodels/FormViewModel.kt:72-75 | When both numbers parse, a vehicle text already in the set with a positive incentive is rejected with `incentive_already_added`, and nothing but the error message changes. |
| FormViewModel.UntrimmedVehicleBypassesGuard | app/src/main/java/com/example/fleetapp/viewmodels/FormViewModel.kt:72-77 | A known vehicle number typed with a trailing blank passes the duplicate-incentive check and stores a second positive incentive for that vehicle. |
| FormViewModel.AddEachCountsSuccesses | app/src/main/java/com/example/fleetapp/viewmodels/FormViewModel.kt:82-83 | After a series of adds, the ledger's entry count has grown by exactly the number of adds that succeeded. |
| FormViewModel.AddFormDataCount | app/src/main/java/com/example/fleetapp/viewmodels/FormViewModel.kt:82-83 | One add grows the entry count by one when it succeeds and by none when it shows an error. |
| FormViewModel.RemoveFormData | app/src/main/java/com/example/fleetapp/viewmodels/FormViewModel.kt:93-97 | The store's removal runs, and the entry count the view model records (a private value no screen reads) drops by the number of the partner's entries with that vehicle number. |
| FormViewModel.EditDialogEntry | app/src/main/java/com/example/fleetapp/components/FormDataList.kt:227-240 | A blank vehicle, driver or amount gives `fill_all_field`, and exactly then. A blank incentive counts as 0. Vehicle and driver are kept untrimmed. Parsable numbers always yield an entry. |
| FormViewModel.ZeroTextReadsZero | app/src/main/java/com/example/fleetapp/components/FormDataList.kt:232-239 | The "0.0" the edit dialog writes into a blank incentive field reads back as zero. |
| FormViewModel.EditFormData | app/src/main/java/com/example/fleetapp/viewmodels/FormViewModel.kt:121-139 | The edit fails exactly when one of the two duplicate-incentive checks fires. A failure only sets the editing error. A success runs the store's edit and clears the editing error. |
| FormViewModel.EditKeepingVehicleAndIncentiveSucceeds | app/src/main/java/com/example/fleetapp/viewmodels/FormViewModel.kt:123-139 | An edit that keeps the vehicle number and the incentive always succeeds and keeps the vehicle set. |
| FormViewModel.EditRejectionChangesNothing | app/src/main/java/com/example/fleetapp/viewmodels/FormViewModel.kt:123-135 | A rejected edit leaves the store, the fields and the add-form error unchanged. |
| FormViewModel.AddCommissionAndRemarks | app/src/main/java/com/example/fleetapp/viewmodels/FormViewModel.kt:153-162 | An unparsable commission changes nothing and shows `please_enter_valid_numbers`. Otherwise the metadata update runs. The notice names the partner and depends on whether remarks were given. |
| FormViewModel.CommissionNeedsExistingMeta | app/src/main/java/com/example/fleetapp/viewmodels/FormViewModel.kt:156-157 | For a partner without metadata, setting a commission leaves the view model unchanged. |
| FormViewModel.DeleteAllFormData | app/src/main/java/com/example/fleetapp/viewmodels/FormViewModel.kt:106-119 | Ledger, metadata and vehicle set become empty, and every field except the dates is cleared, the partner name included. |
| FormViewModel.CreatePdfOfData | app/src/main/java/com/example/fleetapp/viewmodels/FormViewModel.kt:188-209 | The report is the `createPdf` report of the whole cached ledger and metadata under the typed company name and dates. Its file name is built from the current time. It has one block per partner in ledger order and a summary of the grand sums. Afterwards the store is kept, the error cleared, and every field but the dates is empty, the partner name included. |
| FormViewModel.ShareIndividualPDF | app/src/main/java/com/example/fleetapp/viewmodels/FormViewModel.kt:211-229 | There is no report, with `no_data_found`, exactly when the partner is absent or has no entries. Otherwise the report covers that partner's list alone, is titled with the partner's name and has no summary. |

## Left out

- The Compose screens, navigation, theme and `MainActivity` are presentation. Of the UI, only two checks are modelled, as functions: the add button's blank-field check (`SubmitAddForm`) and the edit dialog's entry construction (`EditDialogEntry`).
- DataStore, Gson and `Flow` are not modelled. Each transition is one step on the decoded state. `Decode` models only a missing key reading as empty, not the JSON format. The view model's cached copies of the ledger, metadata and vehicle set are taken to be the store's state. Coroutine interleavings are not modelled.
- FormDataStore.AddFormData merges the two edits of `addFormData` (FormDataStore.kt:44-57 and :117-127) into one step; the state between them is not modelled. In that state the new entry is stored while its partner's metadata is not yet reset (or does not yet exist), so a concurrent `updateCommissionAndRemarks` for a new partner does nothing and the reset that follows overwrites any earlier metadata.
- Amounts are whole paise (`int`), not `Float`: no rounding, no float overflow, no `NaN` or infinity.
- Amounts.ParseAmount accepts only an optional sign, digits, and an optional point with at most two fraction digits. `toFloat` also accepts exponents, more fraction digits, hexadecimal floats, `NaN` and `Infinity`, a trailing `f`, `F`, `d` or `D` type suffix (so `"12f"` reads as 12), and strips every character up to U+0020 at either end. Text in those forms is rejected here. Every caller trims the text first, which removes the ASCII whitespace (space, U+0009 to U+000D, U+001C to U+001F), so surrounding blanks are accepted. Only the control characters U+0000 to U+0008 and U+000E to U+001B at either end are rejected where `toFloat` would strip them.
- Amounts.FormatAmount prints every amount as plain decimals. `Float.toString` switches to scientific notation from 10^7 and prints binary approximations. The round trip FormatThenParse is stated for the exact paise value.
- Text.Trim, Text.Lowercase and Text.CapitalizeFirst treat whitespace and case in ASCII only. Kotlin's `isWhitespace` and `Locale.ROOT` case mapping also cover other Unicode characters.
- The iText layout (fonts, sizes, margins, colours, column widths), the string resources and the "₹" cell texts are not modelled. A report records which blocks, rows and values appear.
- PdfFunctions.CreatePdf always succeeds. The `false` result and the `something_went_wrong` toast of a failed file write are I/O. So are `getPublicDirectory`, `loadPdfs`, `deletePdf`, `sharePdf`, `openPdf` and `PDFViewModel`. The clock is a `LocalTime` parameter rather than `LocalTime.now()`.
- FormViewModel.CreatePdfOfData clears the fields unconditionally. The source clears them only after `createPdf` reports success, which the model always assumes.
- FormViewModel.ShareIndividualPDF returns the report request. Sharing the last file of the directory is I/O.
- The view model's `catch` branches for exceptions other than a number-format error are not modelled. Those are `IllegalStateException`, `IndexOutOfBoundsException` and generic `Exception`, raised by storage or the platform. Toasts are modelled as `Message` values.
- FormViewModel.RemoveFormData, FormDataStore.RemoveFormData, FormDataStore.RemoveFormDataPositions, StoreProperties.RemoveFormDataRemovesMatches and StoreProperties.RemoveFormDataKeepsListsNonEmpty require the store's keys to be unique. Every ledger the app decodes has this property, because it comes from a JSON object.
- Call sites in this revision that do not match their callees (`ListScreen` calling `createPdfOfData` with three arguments, `Navigations`, the private helper in `PDFViewModel`) are not modelled. The model follows the callee definitions.
- The date-range picker (`Calendar`, `SimpleDateFormat`) is not modelled: the dates are plain strings.

=== FILE: amounts.dfy ===
/**
 * Money values. The app keeps amounts as Kotlin `Float`s, reads them with
 * `String.toFloat()` and prints them with `Float.toString()`. Here an amount is an
 * integer number of paise (hundredths of a rupee), read from and written as a
 * plain decimal with at most two fraction digits.
 */
module Amounts {
  import opened Common
  import opened Text

  predicate IsDigit(c: char) { '0' <= c <= '9' }

  predicate AllDigits(s: string) {
    forall i :: 0 <= i < |s| ==> IsDigit(s[i])
  }

  function DigitValue(c: char): nat
    requires IsDigit(c)
  {
    c as int - '0' as int
  }

  function DigitChar(d: nat): char
    requires d < 10
  {
    ('0' as int + d) as char
  }

  /** The natural number that the decimal digits `ds` spell, most significant first. */
  function DigitsValue(ds: string): nat
    requires AllDigits(ds)
  {
    if ds == [] then 0 else DigitsValue(ds[..|ds| - 1]) * 10 + DigitValue(ds[|ds| - 1])
  }

  /** The shortest decimal spelling of `n`. */
  function NatToDigits(n: nat): (ds: string)
    ensures |ds| > 0 && AllDigits(ds)
  {
    if n < 10 then [DigitChar(n)] else NatToDigits(n / 10) + [DigitChar(n % 10)]
  }

  lemma {:induction false} DigitsRoundTrip(n: nat)
    ensures DigitsValue(NatToDigits(n)) == n
  {
    if n >= 10 {
      var ds := NatToDigits(n);
      assert ds[..|ds| - 1] == NatToDigits(n / 10);
      DigitsRoundTrip(n / 10);
    }
  }

  /** Paise value of the fraction digits after the decimal point (none, tenths, or tenths and hundredths). */
  function FractionValue(fs: string): nat
    requires AllDigits(fs) && |fs| <= 2
  {
    if fs == [] then 0 else if |fs| == 1 then DigitValue(fs[0]) * 10 else DigitsValue(fs)
  }

  /** An unsigned decimal: digits with an optional point and at most two fraction digits. */
  function ParseUnsigned(body: string): (r: Option<nat>)
    ensures body == [] ==> r == None
    ensures r.Some? ==> (forall i :: 0 <= i < |body| ==> IsDigit(body[i]) || body[i] == '.')
  {
    var whole := SubstringBefore(body, '.');
    var fraction := if |whole| < |body| then body[|whole| + 1..] else [];
    if AllDigits(whole) && AllDigits(fraction) && |fraction| <= 2 && |whole| + |fraction| > 0 then
      Some(DigitsValue(whole) * 100 + FractionValue(fraction))
    else
      None
  }

  /**
   * `String.toFloat()` read in paise: an optional sign, then digits with an optional
   * decimal point followed by at most two digits, at least one digit in all.
   * Anything else (the empty string among it) fails, as a NumberFormatException would.
   */
  function ParseAmount(s: string): (r: Option<int>)
    ensures s == [] ==> r == None
    ensures r.Some? ==> (forall i :: 0 <= i < |s| ==> IsDigit(s[i]) || s[i] in "+-.")
    ensures r.Some? && r.value < 0 ==> s[0] == '-'
  {
    var signed := |s| > 0 && (s[0] == '-' || s[0] == '+');
    match ParseUnsigned(if signed then s[1..] else s)
    case None => None
    case Some(magnitude) => Some(if signed && s[0] == '-' then -(magnitude as int) else magnitude as int)
  }

  /** The fraction digits `Float.toString` prints: one digit when the hundredths are zero, else two. */
  function FractionDigits(f: nat): (fs: string)
    requires f < 100
    ensures 0 < |fs| <= 2 && AllDigits(fs) && FractionValue(fs) == f
  {
    if f % 10 == 0 then
      [DigitChar(f / 10)]
    else
      var fs := [DigitChar(f / 10), DigitChar(f % 10)];
      assert fs[..1] == [DigitChar(f / 10)] && fs[..1][..0] == [];
      assert DigitsValue(fs[..1]) == f / 10;
      fs
  }

  /** `Float.toString()` of an amount in paise: `12.5`, `100.0`, `-0.25`. */
  function FormatAmount(p: int): (s: string)
    ensures '.' in s
    ensures s[0] == '-' <==> p < 0
  {
    Sign(p) + UnsignedText(Magnitude(p))
  }

  function Magnitude(p: int): nat {
    if p < 0 then -p else p
  }

  function Sign(p: int): string {
    if p < 0 then "-" else ""
  }

  /** `Float.toString()` of a non-negative amount in paise. */
  function UnsignedText(m: nat): (s: string)
    ensures |s| > 0 && IsDigit(s[0])
  {
    NatToDigits(m / 100) + "." + FractionDigits(m % 100)
  }

  lemma {:induction false} SubstringBeforeFirst(a: string, c: char, b: string)
    requires c !in a
    ensures SubstringBefore(a + [c] + b, c) == a
  {
    if a != [] {
      assert (a + [c] + b)[1..] == a[1..] + [c] + b;
      SubstringBeforeFirst(a[1..], c, b);
    }
  }

  lemma UnsignedRoundTrip(n: nat, f: nat)
    requires f < 100
    ensures ParseUnsigned(NatToDigits(n) + "." + FractionDigits(f)) == Some(n * 100 + f)
  {
    var whole := NatToDigits(n);
    var fraction := FractionDigits(f);
    var body := whole + "." + fraction;
    assert '.' !in whole by {
      forall i | 0 <= i < |whole| ensures whole[i] != '.' {
        assert IsDigit(whole[i]);
      }
    }
    SubstringBeforeFirst(whole, '.', fraction);
    assert body[|whole| + 1..] == fraction;
    DigitsRoundTrip(n);
  }

  /** A body that starts with a digit, read with a leading minus, gives its value negated. */
  lemma ParseNegative(body: string, v: nat)
    requires |body| > 0 && IsDigit(body[0])
    requires ParseUnsigned(body) == Some(v)
    ensures ParseAmount("-" + body) == Some(-(v as int))
  {
    var s := "-" + body;
    assert s[0] == '-' && s[1..] == body;
  }

  /** A body that starts with a digit reads as its own value. */
  lemma ParseNonNegative(body: string, v: nat)
    requires |body| > 0 && IsDigit(body[0])
    requires ParseUnsigned(body) == Some(v)
    ensures ParseAmount(body) == Some(v as int)
  {
    assert body[0] != '-' && body[0] != '+';
  }

  /**
   * Reading back a printed amount gives the amount again: the edit dialog fills its
   * fields with `Float.toString()` and the save button reads them with `toFloat()`.
   */
  lemma FormatThenParse(p: int)
    ensures ParseAmount(FormatAmount(p)) == Some(p)
  {
    var magnitude := Magnitude(p);
    UnsignedRoundTrip(magnitude / 100, magnitude % 100);
    if p < 0 {
      assert FormatAmount(p) == "-" + UnsignedText(magnitude);
      ParseNegative(UnsignedText(magnitude), magnitude);
    } else {
      assert FormatAmount(p) == UnsignedText(magnitude);
      ParseNonNegative(UnsignedText(magnitude), magnitude);
    }
  }

  /** The sign a numeral may start with. */
  datatype SignMark = NoSign | Plus | Minus

  function SignText(m: SignMark): string {
    match m
    case NoSign => ""
    case Plus => "+"
    case Minus => "-"
  }

  /** The parts of a decimal numeral: a sign, whole digits, whether a point follows, fraction digits. */
  datatype Decimal = Decimal(sign: SignMark, whole: string, point: bool, fraction: string)

  /** The numerals `toFloat` accepts in this model: at most two fraction digits and at least one digit. */
  predicate WellFormed(d: Decimal) {
    && AllDigits(d.whole) && AllDigits(d.fraction)
    && |d.fraction| <= 2 && (d.point || d.fraction == [])
    && |d.whole| + |d.fraction| > 0
  }

  /** The numeral as typed. */
  function DecimalText(d: Decimal): string {
    SignText(d.sign) + BodyText(d)
  }

  /** The numeral without its sign. */
  function BodyText(d: Decimal): string {
    d.whole + (if d.point then "." else "") + d.fraction
  }

  /** The value of a well-formed numeral in paise, taken independently of the reading code. */
  function DecimalValue(d: Decimal): int
    requires WellFormed(d)
  {
    if d.sign == Minus then -(DecimalMagnitude(d) as int) else DecimalMagnitude(d)
  }

  /** The value of a well-formed numeral without its sign: whole rupees and the paise the fraction names. */
  function DecimalMagnitude(d: Decimal): nat
    requires WellFormed(d)
  {
    DigitsValue(d.whole) * 100 + FractionValue(d.fraction)
  }

  /** The unsigned part of a well-formed numeral reads as its magnitude. */
  lemma ParseUnsignedWellFormed(d: Decimal)
    requires WellFormed(d)
    ensures ParseUnsigned(BodyText(d)) == Some(DecimalMagnitude(d))
  {
    var body := BodyText(d);
    assert '.' !in d.whole;
    if d.point {
      SubstringBeforeFirst(d.whole, '.', d.fraction);
      assert body[|d.whole| + 1..] == d.fraction;
    } else {
      assert body == d.whole;
    }
  }

  /** A body that starts with neither sign reads the same after `+`, and negated after `-`. */
  lemma ParseAfterSign(sign: SignMark, body: string, v: nat)
    requires |body| > 0 && body[0] != '-' && body[0] != '+'
    requires ParseUnsigned(body) == Some(v)
    ensures ParseAmount(SignText(sign) + body) == Some(if sign == Minus then -(v as int) else v as int)
  {
    var t := SignText(sign);
    if sign == NoSign {
      assert t + body == body;
    } else {
      assert (t + body)[0] == t[0] && (t + body)[1..] == body;
    }
  }

  /** Every well-formed numeral reads as its value. */
  lemma ParseWellFormed(d: Decimal)
    requires WellFormed(d)
    ensures ParseAmount(DecimalText(d)) == Some(DecimalValue(d))
  {
    ParseUnsignedWellFormed(d);
    BodyStartsUnsigned(d);
    var m := DecimalMagnitude(d);
    ParseAfterSign(d.sign, BodyText(d), m);
    assert DecimalText(d) == SignText(d.sign) + BodyText(d);
    assert DecimalValue(d) == if d.sign == Minus then -(m as int) else m as int;
  }

  /** The unsigned part of a well-formed numeral starts with a digit or the point. */
  lemma BodyStartsUnsigned(d: Decimal)
    requires WellFormed(d)
    ensures |BodyText(d)| > 0 && BodyText(d)[0] != '-' && BodyText(d)[0] != '+'
  {
    var body := BodyText(d);
    if d.whole != [] {
      assert body[0] == d.whole[0];
    } else {
      assert body[0] == '.';
    }
  }

  /** The sign `toFloat` takes off a text: its first character when that is `+` or `-`. */
  function SignOf(s: string): (m: SignMark)
    ensures m == NoSign <==> !(|s| > 0 && (s[0] == '-' || s[0] == '+'))
    ensures m != NoSign ==> SignText(m) == s[..1]
  {
    if |s| > 0 && s[0] == '-' then Minus
    else if |s| > 0 && s[0] == '+' then Plus
    else NoSign
  }

  /** A text is the part before its first point, then (if there is one) the point and the rest. */
  lemma SplitAtPoint(body: string)
    ensures var whole := SubstringBefore(body, '.');
      if |whole| < |body| then body == whole + "." + body[|whole| + 1..] else body == whole
  {
    var whole := SubstringBefore(body, '.');
    assert whole == body[..|whole|];
    if |whole| < |body| {
      assert body == body[..|whole|] + [body[|whole|]] + body[|whole| + 1..];
    }
  }

  /** A text is its sign followed by the rest. */
  lemma SplitAtSign(s: string)
    ensures s == SignText(SignOf(s)) + s[|SignText(SignOf(s))|..]
  {
    if SignOf(s) != NoSign {
      assert s == s[..1] + s[1..];
    }
  }

  /** The unsigned part of a text cut the way the reading code cuts it. */
  function BodyShape(sign: SignMark, body: string): (d: Decimal)
    ensures d.sign == sign && BodyText(d) == body
  {
    var whole := SubstringBefore(body, '.');
    var point := |whole| < |body|;
    SplitAtPoint(body);
    Decimal(sign, whole, point, if point then body[|whole| + 1..] else [])
  }

  /** A text cut into sign, whole part, point and fraction the way the reading code cuts it. */
  function ShapeOf(s: string): (d: Decimal)
    ensures DecimalText(d) == s
    ensures d.sign == SignOf(s) && BodyText(d) == s[|SignText(d.sign)|..]
  {
    SplitAtSign(s);
    BodyShape(SignOf(s), s[|SignText(SignOf(s))|..])
  }

  /** `toFloat` reads the text after the sign `SignOf` takes off, and negates it after `-`. */
  lemma ParseAfterSignOf(s: string)
    ensures var body := ParseUnsigned(s[|SignText(SignOf(s))|..]);
      && (body.None? ==> ParseAmount(s).None?)
      && (body.Some? ==> ParseAmount(s) == Some(if SignOf(s) == Minus then -(body.value as int) else body.value as int))
  {
  }

  /** An unsigned text that reads as a number is well-formed as cut. */
  lemma ParseUnsignedShape(sign: SignMark, body: string)
    ensures ParseUnsigned(body).Some? ==> WellFormed(BodyShape(sign, body))
  {
  }

  /** A text that reads as a number is well-formed as cut, and reads as that shape's value. */
  lemma ParseShapeOf(s: string)
    ensures ParseAmount(s).Some? ==> WellFormed(ShapeOf(s)) && ParseAmount(s) == Some(DecimalValue(ShapeOf(s)))
  {
    var sign := SignOf(s);
    var body := s[|SignText(sign)|..];
    var d := ShapeOf(s);
    assert d == BodyShape(sign, body);
    ParseAfterSignOf(s);
    ParseUnsignedShape(sign, body);
    if ParseUnsigned(body).Some? {
      ParseUnsignedWellFormed(d);
      var m := DecimalMagnitude(d);
      assert BodyText(d) == body;
      assert ParseUnsigned(body) == Some(m);
    }
  }

  /** Every text that reads as a number is a well-formed numeral, and reads as that numeral's value. */
  lemma ParseOnlyWellFormed(s: string)
    ensures ParseAmount(s).Some? ==>
      exists d :: WellFormed(d) && DecimalText(d) == s && ParseAmount(s) == Some(DecimalValue(d))
  {
    ParseShapeOf(s);
  }
}

=== FILE: common.dfy ===
/** Option and Result values standing in for Kotlin's nullable types and thrown exceptions. */
module Common {

  /** A value that may be missing: Kotlin's `T?`. */
  datatype Option<+T> = None | Some(value: T) {

    /** The value, or `default` when missing: Kotlin's `x ?: default`. */
    function GetOr(default: T): T {
      match this
      case Some(v) => v
      case None => default
    }
  }

  /** The outcome of a guarded operation: a new value, or the error that stopped it. */
  datatype Result<+R, +E> = Success(value: R) | Failure(error: E)
}

=== FILE: data_classes.dfy ===
/** The two value types of the ledger: one trip entry and one partner's metadata. */
module DataClasses {

  /**
   * One trip: vehicle, driver, amount and incentive, amounts in paise. There is no
   * per-entry commission; commission lives in the partner's metadata. Equality is
   * structural over all four fields, as for a Kotlin data class.
   */
  datatype FormData = FormData(vehicleNumber: string, driverName: string, amount: int, incentive: int := 0)

  /** A partner's commission (in paise) and free-text remarks; both empty by default. */
  datatype PartnerMetaData = PartnerMetaData(commission: int := 0, remarks: string := "")

  /** The defaults of both types: no incentive, no commission, no remarks. */
  lemma Defaults(vehicleNumber: string, driverName: string, amount: int)
    ensures FormData(vehicleNumber, driverName, amount).incentive == 0
    ensures PartnerMetaData() == PartnerMetaData(0, "")
  {
  }
}

=== FILE: form_data_store.dfy ===
/**
 * The persisted ledger and its read-modify-write transitions. The store keeps three keys:
 * the ledger (partner -> entries), the partner metadata (partner -> commission and
 * remarks) and the set of vehicle numbers. Each `suspend fun` of the store is one `edit`
 * that writes some of them, except `addFormData`, which is two: one edit writes the
 * ledger and the vehicle set, and a second (`addPartnerMetaData`) the metadata. Here
 * each transition is a function from the decoded state to the next one, and
 * `AddFormData` takes both edits of `addFormData` as one step.
 */
module FormDataStore {
  import opened Common
  import opened LinkedMap
  import opened DataClasses

  /** Partner name -> that partner's entries, in iteration order. */
  type Ledger = LinkedMap<string, seq<FormData>>

  datatype State = State(formData: Ledger, partnerMeta: map<string, PartnerMetaData>, vehicleSet: set<string>)

  const EmptyState := State([], map[], {})

  /** A decoded ledger is a map: no partner occurs twice. */
  ghost predicate Valid(s: State) {
    UniqueKeys(s.formData)
  }

  /** The three preference keys as stored; a key that was never written or was removed is None. */
  datatype Preferences = Preferences(
    formDataKey: Option<Ledger>,
    partnerMetaKey: Option<map<string, PartnerMetaData>>,
    vehicleSetKey: Option<set<string>>)

  /** What the three flows read: a missing key decodes to an empty map or set. */
  function Decode(p: Preferences): State {
    State(p.formDataKey.GetOr([]), p.partnerMetaKey.GetOr(map[]), p.vehicleSetKey.GetOr({}))
  }

  /** `deleteAllFormData`: removes all three keys, so every flow reads back empty. */
  function DeleteAllFormData(p: Preferences): (r: Preferences)
    ensures Decode(r) == EmptyState
    ensures Decode(r).formData == [] && Decode(r).partnerMeta == map[] && Decode(r).vehicleSet == {}
  {
    Preferences(None, None, None)
  }

  /** `currentData[partnerName] ?: emptyList()`: a partner's entries, empty when absent. */
  function EntriesOf(l: Ledger, partner: string): seq<FormData> {
    Get(l, partner).GetOr([])
  }

  /** `filterNot { it.vehicleNumber == v }`: the entries with another vehicle number, in order. */
  function WithoutVehicle(es: seq<FormData>, v: string): (r: seq<FormData>)
    ensures |r| <= |es|
    ensures forall e :: e in r <==> e in es && e.vehicleNumber != v
  {
    if es == [] then []
    else if es[0].vehicleNumber == v then WithoutVehicle(es[1..], v)
    else [es[0]] + WithoutVehicle(es[1..], v)
  }

  /** `map { if (it.vehicleNumber == v) newEntry else it }`: same length, same positions. */
  function ReplaceVehicle(es: seq<FormData>, v: string, newEntry: FormData): (r: seq<FormData>)
    ensures |r| == |es|
    ensures forall i :: 0 <= i < |es| ==> r[i] == (if es[i].vehicleNumber == v then newEntry else es[i])
    ensures (forall i :: 0 <= i < |es| ==> es[i].vehicleNumber != v) ==> r == es
    ensures forall e :: e in r ==> e == newEntry || e in es
    ensures newEntry.vehicleNumber != v ==> forall i :: 0 <= i < |r| ==> r[i].vehicleNumber != v
  {
    seq(|es|, i requires 0 <= i < |es| => if es[i].vehicleNumber == v then newEntry else es[i])
  }

  /** Replacing a vehicle's entries a second time with the same entry changes nothing more. */
  lemma ReplaceVehicleIdempotent(es: seq<FormData>, v: string, newEntry: FormData)
    ensures ReplaceVehicle(ReplaceVehicle(es, v, newEntry), v, newEntry) == ReplaceVehicle(es, v, newEntry)
  {
    var once := ReplaceVehicle(es, v, newEntry);
    var twice := ReplaceVehicle(once, v, newEntry);
    forall i | 0 <= i < |es| ensures twice[i] == once[i] {
      if es[i].vehicleNumber == v {
        assert once[i] == newEntry;
      }
    }
  }

  /** The private `addPartnerMetaData`: (re)sets the partner's metadata to the defaults. */
  function AddPartnerMetaData(s: State, partner: string): (r: State)
    ensures r.partnerMeta.Keys == s.partnerMeta.Keys + {partner}
    ensures r.partnerMeta[partner] == PartnerMetaData(0, "")
    ensures forall q :: q in s.partnerMeta && q != partner ==> r.partnerMeta[q] == s.partnerMeta[q]
    ensures r.formData == s.formData && r.vehicleSet == s.vehicleSet
  {
    s.(partnerMeta := s.partnerMeta[partner := PartnerMetaData()])
  }

  /**
   * `addFormData`: appends the entry to the partner's list (a new partner goes last),
   * adds its vehicle number to the set whatever the incentive, then resets the
   * partner's metadata to the defaults.
   */
  function AddFormData(s: State, partner: string, entry: FormData): (r: State)
    ensures EntriesOf(r.formData, partner) == EntriesOf(s.formData, partner) + [entry]
    ensures partner in Keys(s.formData) ==> Keys(r.formData) == Keys(s.formData)
    ensures partner !in Keys(s.formData) ==> Keys(r.formData) == Keys(s.formData) + [partner]
    ensures forall q :: q != partner ==> Get(r.formData, q) == Get(s.formData, q)
    ensures r.vehicleSet == s.vehicleSet + {entry.vehicleNumber}
    ensures r.partnerMeta.Keys == s.partnerMeta.Keys + {partner}
    ensures r.partnerMeta[partner] == PartnerMetaData(0, "")
    ensures forall q :: q in s.partnerMeta && q != partner ==> r.partnerMeta[q] == s.partnerMeta[q]
    ensures Valid(s) ==> Valid(r)
  {
    var list := EntriesOf(s.formData, partner) + [entry];
    var ledger := Put(s.formData, partner, list);
    assert forall q :: q != partner ==> Get(ledger, q) == Get(s.formData, q) by {
      forall q | q != partner {
        PutOther(s.formData, partner, list, q);
      }
    }
    assert Valid(s) ==> UniqueKeys(ledger) by {
      if Valid(s) {
        PutUnique(s.formData, partner, list);
      }
    }
    AddPartnerMetaData(State(ledger, s.partnerMeta, s.vehicleSet + {entry.vehicleNumber}), partner)
  }

  /**
   * `removeFormData`: drops every entry of the partner whose vehicle number is the given
   * entry's (its other fields are ignored). When nothing is left, the partner and its
   * metadata go. The vehicle number leaves the set in every case.
   */
  function RemoveFormData(s: State, partner: string, entry: FormData): (r: State)
    requires Valid(s)
    ensures Valid(r)
    ensures var kept := WithoutVehicle(EntriesOf(s.formData, partner), entry.vehicleNumber);
      && (kept != [] ==> Get(r.formData, partner) == Some(kept) && Keys(r.formData) == Keys(s.formData)
                         && r.partnerMeta == s.partnerMeta)
      && (kept == [] ==> Get(r.formData, partner) == None && r.partnerMeta == s.partnerMeta - {partner})
    ensures forall q :: q != partner ==> Get(r.formData, q) == Get(s.formData, q)
    ensures r.vehicleSet == s.vehicleSet - {entry.vehicleNumber}
  {
    var kept := WithoutVehicle(EntriesOf(s.formData, partner), entry.vehicleNumber);
    var put := Put(s.formData, partner, kept);
    PutUnique(s.formData, partner, kept);
    assert forall q :: q != partner ==> Get(put, q) == Get(s.formData, q) by {
      forall q | q != partner {
        PutOther(s.formData, partner, kept, q);
      }
    }
    if kept == [] then
      var ledger := Remove(put, partner);
      RemoveUnique(put, partner);
      assert forall q :: q != partner ==> Get(ledger, q) == Get(s.formData, q) by {
        forall q | q != partner {
          RemoveOther(put, partner, q);
        }
      }
      State(ledger, s.partnerMeta - {partner}, s.vehicleSet - {entry.vehicleNumber})
    else
      State(put, s.partnerMeta, s.vehicleSet - {entry.vehicleNumber})
  }

  /**
   * Where `removeFormData` leaves the ledger's pairs: an absent partner leaves the ledger as it
   * was; a partner keeping entries keeps its position with the filtered list; a partner left
   * with none is cut out, the other partners keeping their order.
   */
  lemma RemoveFormDataPositions(s: State, partner: string, entry: FormData)
    requires Valid(s)
    ensures var r := RemoveFormData(s, partner, entry);
      var kept := WithoutVehicle(EntriesOf(s.formData, partner), entry.vehicleNumber);
      && (partner !in Keys(s.formData) ==> r.formData == s.formData)
      && (partner in Keys(s.formData) && kept != [] ==>
            r.formData == s.formData[IndexOf(s.formData, partner) := (partner, kept)])
      && (partner in Keys(s.formData) && kept == [] ==>
            r.formData == s.formData[..IndexOf(s.formData, partner)] + s.formData[IndexOf(s.formData, partner) + 1..])
  {
    var m := s.formData;
    var kept := WithoutVehicle(EntriesOf(m, partner), entry.vehicleNumber);
    if partner !in Keys(m) {
      assert EntriesOf(m, partner) == [];
      RemoveAfterPutNew(m, partner, kept);
    } else if kept == [] {
      RemoveAfterPutPresent(m, partner, kept);
    } else {
      PutOverwrites(m, partner, kept);
    }
  }

  /**
   * `editFormData`: every entry of the partner with the old entry's vehicle number becomes
   * the new entry, in place; an absent partner is bound to an empty list. The vehicle set
   * changes only when the vehicle number does: the old number leaves, the new one enters.
   */
  function EditFormData(s: State, partner: string, oldEntry: FormData, newEntry: FormData): (r: State)
    ensures var before := EntriesOf(s.formData, partner);
      && Get(r.formData, partner) == Some(ReplaceVehicle(before, oldEntry.vehicleNumber, newEntry))
    ensures forall q :: q != partner ==> Get(r.formData, q) == Get(s.formData, q)
    ensures partner in Keys(s.formData) ==> Keys(r.formData) == Keys(s.formData)
    ensures partner !in Keys(s.formData) ==> Keys(r.formData) == Keys(s.formData) + [partner]
    ensures oldEntry.vehicleNumber == newEntry.vehicleNumber ==> r.vehicleSet == s.vehicleSet
    ensures oldEntry.vehicleNumber != newEntry.vehicleNumber ==>
      r.vehicleSet == s.vehicleSet - {oldEntry.vehicleNumber} + {newEntry.vehicleNumber}
    ensures r.partnerMeta == s.partnerMeta
    ensures Valid(s) ==> Valid(r)
  {
    var list := ReplaceVehicle(EntriesOf(s.formData, partner), oldEntry.vehicleNumber, newEntry);
    var ledger := Put(s.formData, partner, list);
    assert forall q :: q != partner ==> Get(ledger, q) == Get(s.formData, q) by {
      forall q | q != partner {
        PutOther(s.formData, partner, list, q);
      }
    }
    assert Valid(s) ==> UniqueKeys(ledger) by {
      if Valid(s) {
        PutUnique(s.formData, partner, list);
      }
    }
    var vehicles := if oldEntry.vehicleNumber != newEntry.vehicleNumber
      then s.vehicleSet - {oldEntry.vehicleNumber} + {newEntry.vehicleNumber}
      else s.vehicleSet;
    State(ledger, s.partnerMeta, vehicles)
  }

  /**
   * `updateCommissionAndRemarks`: overwrites both fields of an existing metadata record;
   * a partner without one is left without one and nothing changes.
   */
  function UpdateCommissionAndRemarks(s: State, partner: string, commission: int, remarks: string): (r: State)
    ensures partner in s.partnerMeta ==>
      r == s.(partnerMeta := s.partnerMeta[partner := PartnerMetaData(commission, remarks)])
    ensures partner !in s.partnerMeta ==> r == s
  {
    if partner in s.partnerMeta then
      var existing := s.partnerMeta[partner];
      s.(partnerMeta := s.partnerMeta[partner := existing.(commission := commission, remarks := remarks)])
    else
      s
  }
}

=== FILE: form_view_model.dfy ===
/**
 * The view model: the add form's fields, the two error lines, and guarded wrappers
 * around the store transitions. The view model's cached ledger, metadata and vehicle
 * set are the store's state; each wrapper either rejects with a message and leaves the
 * state alone, or performs one store transition.
 */
module FormViewModel {
  import opened Common
  import opened Text
  import opened Amounts
  import opened LinkedMap
  import opened DataClasses
  import opened FormDataStore
  import opened PdfFunctions
  import StoreProperties

  /** The string resources the view model shows; `Blank` is the empty string. */
  datatype Message =
    | Blank
    | PleaseEnterValidNumbers
    | IncentiveAlreadyAdded
    | PartnerDataUpdated(partner: string)
    | CommissionUpdated(partner: string)
    | NoDataFound
    | FillAllFields

  /** The text fields of the entry form, as typed. */
  datatype Fields = Fields(
    startDate: string, endDate: string, partnerName: string,
    vehicleNumber: string, driverName: string, amount: string, incentive: string)

  datatype ViewModel = ViewModel(fields: Fields, errorMessage: Message, editingError: Message, store: State)

  /**
   * The ledger key of a typed partner name: trimmed, lower-cased, and its first
   * character title-cased. Names that differ only in case or surrounding blanks share a key.
   */
  function PartnerKey(raw: string): (key: string)
    ensures IsTrimmed(key)
    ensures key == [] <==> IsBlank(raw)
    ensures |key| == |Trim(raw)|
    ensures |key| > 0 ==> !IsLower(key[0])
    ensures forall i :: 1 <= i < |key| ==> !IsUpper(key[i])
    ensures Lowercase(key) == Lowercase(Trim(raw))
  {
    var trimmed := Trim(raw);
    var lower := Lowercase(trimmed);
    var key := CapitalizeFirst(lower);
    LowercaseOfCapitalized(lower);
    LowercaseIdempotent(trimmed);
    assert |key| > 0 ==> IsWhitespace(key[0]) == IsWhitespace(trimmed[0]);
    assert |key| > 0 ==> IsWhitespace(key[|key| - 1]) == IsWhitespace(trimmed[|key| - 1]);
    key
  }

  /** Normalising a key again changes nothing. */
  lemma PartnerKeyIdempotent(raw: string)
    ensures PartnerKey(PartnerKey(raw)) == PartnerKey(raw)
  {
    var key := PartnerKey(raw);
    TrimOfTrimmed(key);
    assert Lowercase(Trim(key)) == Lowercase(Trim(raw));
  }

  /** Two names get the same key exactly when they agree after trimming and lower-casing. */
  lemma SamePartnerKey(a: string, b: string)
    ensures PartnerKey(a) == PartnerKey(b) <==> Lowercase(Trim(a)) == Lowercase(Trim(b))
  {
    if PartnerKey(a) == PartnerKey(b) {
      assert Lowercase(PartnerKey(a)) == Lowercase(PartnerKey(b));
    }
  }

  /** `clearFields`: empties the entry fields and the error line; the partner name only on request. */
  function ClearFields(vm: ViewModel, removePartner: bool): (r: ViewModel)
    ensures r.fields.vehicleNumber == "" && r.fields.driverName == ""
    ensures r.fields.amount == "" && r.fields.incentive == "" && r.errorMessage == Blank
    ensures r.fields.partnerName == (if removePartner then "" else vm.fields.partnerName)
    ensures r.fields.startDate == vm.fields.startDate && r.fields.endDate == vm.fields.endDate
    ensures r.store == vm.store && r.editingError == vm.editingError
  {
    var f := vm.fields;
    vm.(fields := f.(partnerName := if removePartner then "" else f.partnerName,
                     vehicleNumber := "", driverName := "", amount := "", incentive := ""),
        errorMessage := Blank)
  }

  /**
   * The checks of `addFormData`: both numbers must parse (a blank incentive does not),
   * and a vehicle number already in the set, compared as typed, may not get a positive
   * incentive. On success, the key and the entry to store.
   */
  function ValidateAdd(f: Fields, vehicleSet: set<string>): (r: Result<(string, FormData), Message>)
    ensures r.Failure? ==> r.error == PleaseEnterValidNumbers || r.error == IncentiveAlreadyAdded
    ensures r.Failure? && r.error == PleaseEnterValidNumbers <==>
      ParseAmount(Trim(f.amount)).None? || ParseAmount(Trim(f.incentive)).None?
    ensures r.Failure? && r.error == IncentiveAlreadyAdded <==>
      && ParseAmount(Trim(f.amount)).Some? && ParseAmount(Trim(f.incentive)).Some?
      && f.vehicleNumber in vehicleSet && ParseAmount(Trim(f.incentive)).value > 0
    ensures r.Success? ==> r.value.0 == PartnerKey(f.partnerName)
    ensures r.Success? ==> r.value.1 == FormData(Trim(f.vehicleNumber), Trim(f.driverName),
      ParseAmount(Trim(f.amount)).value, ParseAmount(Trim(f.incentive)).value)
  {
    var key := PartnerKey(f.partnerName);
    match (ParseAmount(Trim(f.amount)), ParseAmount(Trim(f.incentive)))
    case (Some(amount), Some(incentive)) =>
      if f.vehicleNumber in vehicleSet && incentive > 0 then
        Failure(IncentiveAlreadyAdded)
      else
        Success((key, FormData(Trim(f.vehicleNumber), Trim(f.driverName), amount, incentive)))
    case _ => Failure(PleaseEnterValidNumbers)
  }

  /**
   * `addFormData`: a rejected add shows its message and changes nothing else; an accepted
   * one stores the entry under the normalised key and clears the entry fields, keeping
   * the partner name.
   */
  function AddFormData(vm: ViewModel): (r: ViewModel)
    ensures ValidateAdd(vm.fields, vm.store.vehicleSet).Failure? ==>
      r == vm.(errorMessage := ValidateAdd(vm.fields, vm.store.vehicleSet).error)
    ensures ValidateAdd(vm.fields, vm.store.vehicleSet).Success? ==>
      var (key, entry) := ValidateAdd(vm.fields, vm.store.vehicleSet).value;
      && r.store == FormDataStore.AddFormData(vm.store, key, entry)
      && r.fields == vm.fields.(vehicleNumber := "", driverName := "", amount := "", incentive := "")
      && r.errorMessage == Blank && r.editingError == vm.editingError
  {
    match ValidateAdd(vm.fields, vm.store.vehicleSet)
    case Failure(message) => vm.(errorMessage := message)
    case Success((key, entry)) =>
      ClearFields(vm.(store := FormDataStore.AddFormData(vm.store, key, entry)), false)
  }

  /**
   * The add button of the entry screen: with a blank partner name, date, vehicle number,
   * driver name or amount it only shows `fill_all_field`; otherwise it calls `addFormData`.
   * A blank incentive is let through.
   */
  function SubmitAddForm(vm: ViewModel): (r: ViewModel)
    ensures var f := vm.fields;
      IsBlank(f.partnerName) || IsBlank(f.startDate) || IsBlank(f.endDate)
      || IsBlank(f.vehicleNumber) || IsBlank(f.driverName) || IsBlank(f.amount)
      <==> r == vm.(errorMessage := FillAllFields)
    ensures var f := vm.fields;
      !(IsBlank(f.partnerName) || IsBlank(f.startDate) || IsBlank(f.endDate)
        || IsBlank(f.vehicleNumber) || IsBlank(f.driverName) || IsBlank(f.amount))
      ==> r == AddFormData(vm)
  {
    var f := vm.fields;
    if IsBlank(f.partnerName) || IsBlank(f.startDate) || IsBlank(f.endDate)
       || IsBlank(f.vehicleNumber) || IsBlank(f.driverName) || IsBlank(f.amount) then
      vm.(errorMessage := FillAllFields)
    else
      var r := AddFormData(vm);
      assert r.errorMessage != FillAllFields;
      r
  }

  /**
   * Through the add button, every stored entry has a non-blank, trimmed vehicle number
   * and driver name under a non-empty partner key, and the new entry is the last of its
   * partner's list.
   */
  lemma SubmitAddFormStoresTrimmedEntry(vm: ViewModel)
    ensures SubmitAddForm(vm).errorMessage == Blank ==>
      var key := PartnerKey(vm.fields.partnerName);
      var es := EntriesOf(SubmitAddForm(vm).store.formData, key);
      && key != [] && es != []
      && es[..|es| - 1] == EntriesOf(vm.store.formData, key)
      && es[|es| - 1].vehicleNumber != [] && IsTrimmed(es[|es| - 1].vehicleNumber)
      && es[|es| - 1].driverName != [] && IsTrimmed(es[|es| - 1].driverName)
  {
    if SubmitAddForm(vm).errorMessage == Blank {
      var f := vm.fields;
      assert !IsBlank(f.partnerName) && !IsBlank(f.vehicleNumber) && !IsBlank(f.driverName);
      assert ValidateAdd(f, vm.store.vehicleSet).Success?;
    }
  }

  /**
   * The save button of the edit dialog: `fill_all_field` when the vehicle number, the
   * driver name or the amount is blank; a blank incentive counts as "0.0"; the numbers
   * must parse. The vehicle number and driver name are kept as typed, untrimmed.
   */
  function EditDialogEntry(vehicle: string, driver: string, amount: string, incentive: string): (r: Result<FormData, Message>)
    ensures r.Failure? && r.error == FillAllFields <==> IsBlank(amount) || IsBlank(driver) || IsBlank(vehicle)
    ensures r.Failure? ==> r.error == FillAllFields || r.error == PleaseEnterValidNumbers
    ensures r.Success? ==> r.value.vehicleNumber == vehicle && r.value.driverName == driver
    ensures r.Success? ==> Some(r.value.amount) == ParseAmount(Trim(amount))
    ensures r.Success? && IsBlank(incentive) ==> r.value.incentive == 0
    ensures r.Success? && !IsBlank(incentive) ==> Some(r.value.incentive) == ParseAmount(Trim(incentive))
    ensures (&& !IsBlank(amount) && !IsBlank(driver) && !IsBlank(vehicle) && ParseAmount(Trim(amount)).Some?
             && (IsBlank(incentive) || ParseAmount(Trim(incentive)).Some?)) ==> r.Success?
  {
    if IsBlank(amount) || IsBlank(driver) || IsBlank(vehicle) then Failure(FillAllFields)
    else
      var incentiveText := if IsBlank(incentive) then "0.0" else incentive;
      ZeroTextReadsZero();
      var parsedAmount := ParseAmount(Trim(amount));
      var parsedIncentive := ParseAmount(Trim(incentiveText));
      if parsedAmount.Some? && parsedIncentive.Some? then
        Success(FormData(vehicle, driver, parsedAmount.value, parsedIncentive.value))
      else
        Failure(PleaseEnterValidNumbers)
  }

  /** The text the edit dialog puts in a blank incentive field reads as zero. */
  lemma ZeroTextReadsZero()
    ensures ParseAmount(Trim("0.0")) == Some(0)
  {
    TrimOfTrimmed("0.0");
    UnsignedRoundTrip(0, 0);
    assert NatToDigits(0) + "." + FractionDigits(0) == "0.0";
    ParseNonNegative("0.0", 0);
  }

  /** `addFormData` shows an error exactly when its checks fail, and then leaves store and form as they were. */
  lemma AddFormDataErrorChangesNothing(vm: ViewModel)
    ensures var r := AddFormData(vm);
      r.errorMessage != Blank <==> ValidateAdd(vm.fields, vm.store.vehicleSet).Failure?
    ensures var r := AddFormData(vm);
      r.errorMessage != Blank ==> r.store == vm.store && r.fields == vm.fields
  {
  }

  /** A positive incentive for a vehicle already in the set, typed exactly as stored, is always rejected. */
  lemma DuplicateIncentiveRejected(vm: ViewModel)
    ensures && ParseAmount(Trim(vm.fields.amount)).Some?
            && ParseAmount(Trim(vm.fields.incentive)).Some? && ParseAmount(Trim(vm.fields.incentive)).value > 0
            && vm.fields.vehicleNumber in vm.store.vehicleSet
            ==> AddFormData(vm) == vm.(errorMessage := IncentiveAlreadyAdded)
  {
  }

  /**
   * The guard compares the vehicle number as typed while the store keeps it trimmed, so
   * a vehicle already in the set, typed with a trailing blank, gets a second incentive.
   */
  lemma UntrimmedVehicleBypassesGuard(vm: ViewModel, vehicle: string)
    ensures && vehicle in vm.store.vehicleSet && vehicle != [] && IsTrimmed(vehicle)
            && vm.fields.vehicleNumber == vehicle + " " && vm.fields.vehicleNumber !in vm.store.vehicleSet
            && ParseAmount(Trim(vm.fields.amount)).Some?
            && ParseAmount(Trim(vm.fields.incentive)).Some? && ParseAmount(Trim(vm.fields.incentive)).value > 0
            ==>
            && AddFormData(vm).errorMessage == Blank
            && var key := PartnerKey(vm.fields.partnerName);
               exists entry: FormData :: entry.vehicleNumber == vehicle && entry.incentive > 0 &&
                 EntriesOf(AddFormData(vm).store.formData, key) == EntriesOf(vm.store.formData, key) + [entry]
  {
    if && vehicle in vm.store.vehicleSet && vehicle != [] && IsTrimmed(vehicle)
       && vm.fields.vehicleNumber == vehicle + " " && vm.fields.vehicleNumber !in vm.store.vehicleSet
       && ParseAmount(Trim(vm.fields.amount)).Some?
       && ParseAmount(Trim(vm.fields.incentive)).Some? && ParseAmount(Trim(vm.fields.incentive)).value > 0
    {
      TrimTrailingBlank(vehicle);
      var checked := ValidateAdd(vm.fields, vm.store.vehicleSet);
      assert checked.Success?;
      var (key, entry) := checked.value;
      assert key == PartnerKey(vm.fields.partnerName);
      assert entry.vehicleNumber == vehicle;
      var after := FormDataStore.AddFormData(vm.store, key, entry);
      assert AddFormData(vm).store == after;
    }
  }

  /** Feeds each typed form to `addFormData` in turn; returns the final view model and how many adds succeeded. */
  function AddEach(vm: ViewModel, forms: seq<Fields>): (ViewModel, nat)
    decreases |forms|
  {
    if forms == [] then (vm, 0)
    else
      var next := AddFormData(vm.(fields := forms[0]));
      var (last, count) := AddEach(next, forms[1..]);
      (last, count + (if next.errorMessage == Blank then 1 else 0))
  }

  /** After any run of adds, the ledger has grown by exactly the number of adds that succeeded. */
  lemma {:induction false} AddEachCountsSuccesses(vm: ViewModel, forms: seq<Fields>)
    ensures var (last, count) := AddEach(vm, forms);
      StoreProperties.TotalEntries(last.store.formData) == StoreProperties.TotalEntries(vm.store.formData) + count
    decreases |forms|
  {
    if forms != [] {
      var input := vm.(fields := forms[0]);
      AddFormDataCount(input);
      AddEachCountsSuccesses(AddFormData(input), forms[1..]);
    }
  }

  /** One `addFormData` adds one entry when it succeeds and none when it shows an error. */
  lemma AddFormDataCount(vm: ViewModel)
    ensures var r := AddFormData(vm);
      StoreProperties.TotalEntries(r.store.formData)
        == StoreProperties.TotalEntries(vm.store.formData) + (if r.errorMessage == Blank then 1 else 0)
  {
    match ValidateAdd(vm.fields, vm.store.vehicleSet)
    case Failure(_) =>
    case Success((key, entry)) =>
      StoreProperties.AddFormDataAddsOneEntry(vm.store, key, entry);
  }

  /**
   * `removeFormData`: the store removal, and the entry count the view model records (a
   * private value no screen reads), which drops by the number of the partner's entries
   * with that vehicle number.
   */
  function RemoveFormData(vm: ViewModel, partner: string, entry: FormData): (r: (ViewModel, nat))
    requires Valid(vm.store)
    ensures r.0 == vm.(store := FormDataStore.RemoveFormData(vm.store, partner, entry))
    ensures r.1 == StoreProperties.TotalEntries(vm.store.formData)
                 - StoreProperties.CountVehicle(EntriesOf(vm.store.formData, partner), entry.vehicleNumber)
  {
    var next := FormDataStore.RemoveFormData(vm.store, partner, entry);
    StoreProperties.RemoveFormDataRemovesMatches(vm.store, partner, entry);
    (vm.(store := next), StoreProperties.TotalEntries(next.formData))
  }

  /** The two duplicate-incentive checks of `editFormData`. */
  predicate EditRejected(vehicleSet: set<string>, oldEntry: FormData, newEntry: FormData) {
    || (newEntry.vehicleNumber != oldEntry.vehicleNumber && newEntry.vehicleNumber in vehicleSet && newEntry.incentive != 0)
    || (newEntry.incentive != 0 && oldEntry.incentive == 0 && newEntry.vehicleNumber in vehicleSet)
  }

  /**
   * `editFormData`: false with `incentive_already_added` and no store change when a check
   * fires; otherwise the store edit, a cleared editing error, and true.
   */
  function EditFormData(vm: ViewModel, partner: string, oldEntry: FormData, newEntry: FormData): (r: (ViewModel, bool))
    ensures r.1 <==> !EditRejected(vm.store.vehicleSet, oldEntry, newEntry)
    ensures !r.1 ==> r.0 == vm.(editingError := IncentiveAlreadyAdded)
    ensures r.1 ==> r.0 == vm.(store := FormDataStore.EditFormData(vm.store, partner, oldEntry, newEntry), editingError := Blank)
  {
    if newEntry.vehicleNumber != oldEntry.vehicleNumber && newEntry.vehicleNumber in vm.store.vehicleSet
       && newEntry.incentive != 0 then
      (vm.(editingError := IncentiveAlreadyAdded), false)
    else if newEntry.incentive != 0 && oldEntry.incentive == 0 && newEntry.vehicleNumber in vm.store.vehicleSet then
      (vm.(editingError := IncentiveAlreadyAdded), false)
    else
      (vm.(store := FormDataStore.EditFormData(vm.store, partner, oldEntry, newEntry), editingError := Blank), true)
  }

  /** An edit that keeps the vehicle number and the incentive always succeeds and keeps the vehicle set. */
  lemma EditKeepingVehicleAndIncentiveSucceeds(vm: ViewModel, partner: string, oldEntry: FormData, newEntry: FormData)
    requires newEntry.vehicleNumber == oldEntry.vehicleNumber && newEntry.incentive == oldEntry.incentive
    ensures EditFormData(vm, partner, oldEntry, newEntry).1
    ensures EditFormData(vm, partner, oldEntry, newEntry).0.store.vehicleSet == vm.store.vehicleSet
  {
  }

  /** A rejected edit changes nothing but the editing error. */
  lemma EditRejectionChangesNothing(vm: ViewModel, partner: string, oldEntry: FormData, newEntry: FormData)
    ensures var (r, ok) := EditFormData(vm, partner, oldEntry, newEntry);
      !ok ==> r.store == vm.store && r.fields == vm.fields && r.errorMessage == vm.errorMessage
  {
  }

  /**
   * `addCommissionAndRemarks`: an unparsable commission changes nothing; otherwise the
   * metadata update runs, and the notice names the partner whether or not it had metadata.
   */
  function AddCommissionAndRemarks(vm: ViewModel, partner: string, commission: string, remarks: string): (r: (ViewModel, Message))
    ensures ParseAmount(Trim(commission)).None? ==> r == (vm, PleaseEnterValidNumbers)
    ensures ParseAmount(Trim(commission)).Some? ==>
      && r.0 == vm.(store := UpdateCommissionAndRemarks(vm.store, partner, ParseAmount(Trim(commission)).value, remarks))
      && r.1 == (if remarks != "" then PartnerDataUpdated(partner) else CommissionUpdated(partner))
  {
    match ParseAmount(Trim(commission))
    case None => (vm, PleaseEnterValidNumbers)
    case Some(value) =>
      var next := vm.(store := UpdateCommissionAndRemarks(vm.store, partner, value, remarks));
      (next, if remarks != "" then PartnerDataUpdated(partner) else CommissionUpdated(partner))
  }

  /** Only a partner that already has metadata gets the new commission. */
  lemma CommissionNeedsExistingMeta(vm: ViewModel, partner: string, commission: string, remarks: string)
    requires partner !in vm.store.partnerMeta
    ensures AddCommissionAndRemarks(vm, partner, commission, remarks).0 == vm
  {
  }

  /** `deleteAllFormData`: the store and the cached state become empty and every field, partner name included, is cleared. */
  function DeleteAllFormData(vm: ViewModel): (r: ViewModel)
    ensures r.store.formData == [] && r.store.partnerMeta == map[] && r.store.vehicleSet == {}
    ensures r.fields == Fields(vm.fields.startDate, vm.fields.endDate, "", "", "", "", "")
    ensures r.errorMessage == Blank
  {
    var cleared := FormDataStore.DeleteAllFormData(Preferences(Some(vm.store.formData), Some(vm.store.partnerMeta), Some(vm.store.vehicleSet)));
    ClearFields(vm.(store := Decode(cleared)), true)
  }

  /**
   * `createPdfOfData`: a report of the whole cached ledger under the typed company name,
   * with the summary table; afterwards every field, the partner name included, is cleared.
   */
  method CreatePdfOfData(vm: ViewModel, nameOfCompany: string, currentTime: LocalTime) returns (next: ViewModel, report: Report)
    ensures report.fileName == FileName(nameOfCompany, vm.fields.startDate, vm.fields.endDate, LocalTimeText(currentTime))
    ensures report.heading == Heading(nameOfCompany, true)
    ensures report.startDate == vm.fields.startDate && report.endDate == vm.fields.endDate
    ensures |report.blocks| == |vm.store.formData|
    ensures forall i :: 0 <= i < |vm.store.formData| ==>
      RendersPartner(report.blocks[i], vm.store.formData[i].0, vm.store.formData[i].1, vm.store.partnerMeta)
    ensures report.summary == Some(Summary(
      GrandAmount(vm.store.formData), GrandIncentives(vm.store.formData),
      GrandCommission(vm.store.formData, vm.store.partnerMeta),
      SumPayables(vm.store.formData, vm.store.partnerMeta)))
    ensures next.store == vm.store && next.errorMessage == Blank
    ensures next.fields == Fields(vm.fields.startDate, vm.fields.endDate, "", "", "", "", "")
  {
    var request := ReportRequest(vm.store.formData, vm.store.partnerMeta, nameOfCompany,
                                 vm.fields.startDate, vm.fields.endDate, false);
    report := CreatePdf(request, currentTime);
    next := ClearFields(vm, true);
  }

  /**
   * `shareIndividualPDF`: no report for a partner without entries; otherwise a report of
   * that partner alone, titled with the partner's name, without the summary table.
   */
  function ShareIndividualPDF(vm: ViewModel, partner: string): (r: Result<ReportRequest, Message>)
    ensures r.Failure? <==> EntriesOf(vm.store.formData, partner) == []
    ensures r.Failure? ==> r.error == NoDataFound
    ensures r.Success? ==>
      && r.value.formDataMap == [(partner, EntriesOf(vm.store.formData, partner))]
      && r.value.nameOfCompany == partner && r.value.isIndividual
      && r.value.partnerMetadata == vm.store.partnerMeta
      && r.value.startDate == vm.fields.startDate && r.value.endDate == vm.fields.endDate
  {
    match Get(vm.store.formData, partner)
    case None => Failure(NoDataFound)
    case Some(list) =>
      if list == [] then Failure(NoDataFound)
      else Success(ReportRequest([(partner, list)], vm.store.partnerMeta, partner,
                                 vm.fields.startDate, vm.fields.endDate, true))
  }
}

=== FILE: linked_map.dfy ===
/**
 * The insertion-ordered maps the app stores its ledger in (Gson decodes a JSON object
 * into an insertion-ordered map, and `forEach` walks it in that order). A map is a
 * sequence of key/value pairs; `put` on a present key keeps its position, on a new key
 * appends it, and `remove` keeps the order of the others.
 */
module LinkedMap {
  import opened Common

  type LinkedMap<K, V> = seq<(K, V)>

  /** The keys in iteration order. */
  function Keys<K, V>(m: LinkedMap<K, V>): (ks: seq<K>)
    ensures |ks| == |m|
    ensures forall i :: 0 <= i < |m| ==> ks[i] == m[i].0
  {
    if m == [] then [] else [m[0].0] + Keys(m[1..])
  }

  /** No key occurs twice: the shape every map the app reads has. */
  ghost predicate UniqueKeys<K, V>(m: LinkedMap<K, V>) {
    forall i, j :: 0 <= i < j < |m| ==> m[i].0 != m[j].0
  }

  /** `m[k]`: the value bound to `k`, or None. */
  function Get<K(==), V>(m: LinkedMap<K, V>, k: K): (r: Option<V>)
    ensures r.None? <==> k !in Keys(m)
  {
    if m == [] then None else if m[0].0 == k then Some(m[0].1) else Get(m[1..], k)
  }

  /** `m[k] = v`: rebinds `k` in place when present, appends it when absent. */
  function Put<K(==), V>(m: LinkedMap<K, V>, k: K, v: V): (r: LinkedMap<K, V>)
    ensures Get(r, k) == Some(v)
    ensures k in Keys(m) ==> Keys(r) == Keys(m)
    ensures k !in Keys(m) ==> Keys(r) == Keys(m) + [k]
  {
    if m == [] then [(k, v)]
    else if m[0].0 == k then
      var r := [(k, v)] + m[1..];
      assert r[1..] == m[1..];
      r
    else
      var rest := Put(m[1..], k, v);
      var r := [m[0]] + rest;
      assert r[1..] == rest;
      r
  }

  /** `m.remove(k)`: drops the first binding of `k`; the other keys keep their order. */
  function Remove<K(==), V>(m: LinkedMap<K, V>, k: K): (r: LinkedMap<K, V>)
    ensures k !in Keys(m) ==> r == m
    ensures k in Keys(m) ==> |r| == |m| - 1
  {
    if m == [] then []
    else if m[0].0 == k then m[1..]
    else
      assert Keys(m) == [m[0].0] + Keys(m[1..]);
      [m[0]] + Remove(m[1..], k)
  }

  /** The position of the first binding of a present key. */
  function IndexOf<K(==), V>(m: LinkedMap<K, V>, k: K): (i: nat)
    requires k in Keys(m)
    ensures i < |m| && m[i].0 == k
    ensures forall j :: 0 <= j < i ==> m[j].0 != k
  {
    if m[0].0 == k then 0
    else
      assert Keys(m) == [m[0].0] + Keys(m[1..]);
      1 + IndexOf(m[1..], k)
  }

  /** Where `remove` cuts: at the first binding of `k`, leaving the pairs before and after it in order. */
  lemma RemoveCutsFirstBinding<K, V>(m: LinkedMap<K, V>, k: K)
    requires k in Keys(m)
    ensures Remove(m, k) == m[..IndexOf(m, k)] + m[IndexOf(m, k) + 1..]
  {
    RemoveCutsAt(m, k, IndexOf(m, k));
  }

  /** `remove` cuts at a position `i` holding `k` when no earlier position does. */
  lemma {:induction false} RemoveCutsAt<K, V>(m: LinkedMap<K, V>, k: K, i: nat)
    requires i < |m| && m[i].0 == k
    requires forall j :: 0 <= j < i ==> m[j].0 != k
    ensures Remove(m, k) == m[..i] + m[i + 1..]
  {
    if i == 0 {
      assert m[..0] + m[1..] == m[1..];
    } else {
      RemoveCutsAt(m[1..], k, i - 1);
      RemoveCutStep(m, k, i - 1);
    }
  }

  /** One step of the cut: removing past a head with another key keeps the head in front. */
  lemma RemoveCutStep<K, V>(m: LinkedMap<K, V>, k: K, i: nat)
    requires m != [] && m[0].0 != k && i < |m| - 1
    requires Remove(m[1..], k) == m[1..][..i] + m[1..][i + 1..]
    ensures Remove(m, k) == m[..i + 1] + m[i + 2..]
  {
    ConsCut(m, i);
  }

  /** `put` of a new key appends its binding after every other. */
  lemma {:induction false} PutAppends<K, V>(m: LinkedMap<K, V>, k: K, v: V)
    ensures k !in Keys(m) ==> Put(m, k, v) == m + [(k, v)]
  {
    if m != [] && k !in Keys(m) {
      assert Keys(m) == [m[0].0] + Keys(m[1..]);
      PutAppends(m[1..], k, v);
      ConsAppend(m, (k, v));
    }
  }

  /** `put` of a present key overwrites its first binding where it stands. */
  lemma PutOverwrites<K, V>(m: LinkedMap<K, V>, k: K, v: V)
    requires k in Keys(m)
    ensures Put(m, k, v) == m[IndexOf(m, k) := (k, v)]
  {
    PutOverwritesAt(m, k, v, IndexOf(m, k));
  }

  /** `put` writes at a position `i` holding `k` when no earlier position does. */
  lemma {:induction false} PutOverwritesAt<K, V>(m: LinkedMap<K, V>, k: K, v: V, i: nat)
    requires i < |m| && m[i].0 == k
    requires forall j :: 0 <= j < i ==> m[j].0 != k
    ensures Put(m, k, v) == m[i := (k, v)]
  {
    if i == 0 {
      ConsUpdate(m, -1, (k, v));
    } else {
      PutOverwritesAt(m[1..], k, v, i - 1);
      ConsUpdate(m, i - 1, (k, v));
    }
  }

  /** Putting a new key and then removing it gives the map back. */
  lemma RemoveAfterPutNew<K, V>(m: LinkedMap<K, V>, k: K, v: V)
    requires k !in Keys(m)
    ensures Remove(Put(m, k, v), k) == m
  {
    var put := Put(m, k, v);
    PutAppends(m, k, v);
    assert forall j :: 0 <= j < |m| ==> put[j].0 == Keys(m)[j];
    RemoveCutsAt(put, k, |m|);
    assert put[..|m|] == m;
  }

  /** Putting a present key and then removing it cuts that key's pair out of the original map. */
  lemma RemoveAfterPutPresent<K, V>(m: LinkedMap<K, V>, k: K, v: V)
    requires k in Keys(m)
    ensures Remove(Put(m, k, v), k) == m[..IndexOf(m, k)] + m[IndexOf(m, k) + 1..]
  {
    var i := IndexOf(m, k);
    var put := Put(m, k, v);
    PutOverwrites(m, k, v);
    RemoveCutsAt(put, k, i);
    assert put[..i] == m[..i];
    assert put[i + 1..] == m[i + 1..];
  }

  /** Appending after the tail is appending after the whole sequence. */
  lemma ConsAppend<T>(s: seq<T>, y: T)
    requires s != []
    ensures [s[0]] + (s[1..] + [y]) == s + [y]
  {
    assert s == [s[0]] + s[1..];
  }

  /** Cutting position `i` out of the tail is cutting position `i + 1` out of the whole sequence. */
  lemma ConsCut<T>(s: seq<T>, i: nat)
    requires i < |s| - 1
    ensures [s[0]] + (s[1..][..i] + s[1..][i + 1..]) == s[..i + 1] + s[i + 2..]
  {
    assert s[1..][..i] == s[1..i + 1];
    assert [s[0]] + s[1..i + 1] == s[..i + 1];
  }

  /** Updating position `i` of the tail is updating position `i + 1` of the whole sequence; `i == -1` updates the head. */
  lemma ConsUpdate<T>(s: seq<T>, i: int, y: T)
    requires -1 <= i < |s| - 1
    ensures i == -1 ==> [y] + s[1..] == s[0 := y]
    ensures 0 <= i ==> [s[0]] + s[1..][i := y] == s[i + 1 := y]
  {
    if i == -1 {
      assert ([y] + s[1..])[0] == y;
    }
  }

  /** `put` leaves every other key's binding as it was. */
  lemma {:induction false} PutOther<K, V>(m: LinkedMap<K, V>, k: K, v: V, q: K)
    requires q != k
    ensures Get(Put(m, k, v), q) == Get(m, q)
  {
    if m != [] && m[0].0 != k {
      PutOther(m[1..], k, v, q);
    }
  }

  /** `remove` leaves every other key's binding as it was. */
  lemma {:induction false} RemoveOther<K, V>(m: LinkedMap<K, V>, k: K, q: K)
    requires q != k
    ensures Get(Remove(m, k), q) == Get(m, q)
  {
    if m != [] && m[0].0 != k {
      RemoveOther(m[1..], k, q);
    }
  }

  /** On a map without repeated keys, `remove` leaves the key unbound and repeats nothing. */
  lemma RemoveUnique<K, V>(m: LinkedMap<K, V>, k: K)
    requires UniqueKeys(m)
    ensures Get(Remove(m, k), k) == None
    ensures UniqueKeys(Remove(m, k))
  {
    RemoveUnbinds(m, k);
    RemoveKeepsUnique(m, k);
  }

  /** On a map without repeated keys, `remove` leaves the key unbound. */
  lemma RemoveUnbinds<K, V>(m: LinkedMap<K, V>, k: K)
    requires UniqueKeys(m)
    ensures k !in Keys(Remove(m, k))
  {
    if k in Keys(m) {
      var i := IndexOf(m, k);
      var r := Remove(m, k);
      RemoveCutsFirstBinding(m, k);
      forall j | 0 <= j < |r| ensures Keys(r)[j] != k {
        CutIndex(m, i, j);
      }
    }
  }

  /** On a map without repeated keys, `remove` repeats nothing. */
  lemma RemoveKeepsUnique<K, V>(m: LinkedMap<K, V>, k: K)
    requires UniqueKeys(m)
    ensures UniqueKeys(Remove(m, k))
  {
    if k in Keys(m) {
      RemoveCutsFirstBinding(m, k);
      CutUnique(m, IndexOf(m, k));
    }
  }

  /** Position `j` of a sequence with position `i` cut out. */
  lemma CutIndex<T>(s: seq<T>, i: nat, j: nat)
    requires i < |s| && j < |s| - 1
    ensures (s[..i] + s[i + 1..])[j] == s[if j < i then j else j + 1]
  {
  }

  /** Cutting one pair out of a map without repeated keys repeats nothing. */
  lemma CutUnique<K, V>(m: LinkedMap<K, V>, i: nat)
    requires UniqueKeys(m) && i < |m|
    ensures UniqueKeys(m[..i] + m[i + 1..])
  {
    var r := m[..i] + m[i + 1..];
    forall p, q | 0 <= p < q < |r| ensures r[p].0 != r[q].0 {
      CutIndex(m, i, p);
      CutIndex(m, i, q);
    }
  }

  /** `put` keeps keys unique. */
  lemma PutUnique<K, V>(m: LinkedMap<K, V>, k: K, v: V)
    requires UniqueKeys(m)
    ensures UniqueKeys(Put(m, k, v))
  {
    var r := Put(m, k, v);
    forall i, j | 0 <= i < j < |r| ensures r[i].0 != r[j].0 {
      assert Keys(r)[i] == r[i].0 && Keys(r)[j] == r[j].0;
      if k in Keys(m) {
        assert Keys(m)[i] == m[i].0 && Keys(m)[j] == m[j].0;
      } else {
        if j < |m| {
          assert Keys(m)[i] == m[i].0 && Keys(m)[j] == m[j].0;
        }
      }
    }
  }
}

=== FILE: pdf_functions.dfy ===
/**
 * What `createPdf` puts in a report, without the PDF library: the file name, the
 * heading, one block per partner (entry rows, totals, commission, payable, remarks)
 * in the ledger's order, and the summary table of the whole report.
 */
module PdfFunctions {
  import opened Common
  import opened Text
  import opened Amounts
  import opened LinkedMap
  import opened DataClasses
  import opened FormDataStore

  /** The arguments of `createPdf`, the current time aside. */
  datatype ReportRequest = ReportRequest(
    formDataMap: Ledger, partnerMetadata: map<string, PartnerMetaData>,
    nameOfCompany: string, startDate: string, endDate: string, isIndividual: bool)

  /** Background of an entry row. */
  datatype Shade = White | LightGray

  /** One entry row: the entry's four cells and its background. */
  datatype EntryRow = EntryRow(vehicleNumber: string, driverName: string, amount: int, incentive: int, shade: Shade)

  /** One partner's table: its rows, the total row, incentive, commission and payable rows, and the optional remarks row. */
  datatype PartnerBlock = PartnerBlock(
    partnerName: string, rows: seq<EntryRow>,
    totalAmount: int, totalIncentives: int, totalCommission: int, payableAmount: int,
    remarks: Option<string>)

  /** The summary table of a report over all partners. */
  datatype Summary = Summary(totalAmount: int, totalIncentives: int, totalCommission: int, totalPayable: int)

  /** The heading: the company name, followed by the report title unless the report is for one partner. */
  datatype Heading = Heading(nameOfCompany: string, withReportTitle: bool)

  datatype Report = Report(
    fileName: string, heading: Heading, startDate: string, endDate: string,
    blocks: seq<PartnerBlock>, summary: Option<Summary>)

  /** A date made safe for a file name: every `/` becomes `-`. */
  function SanitizeDate(date: string): (r: string)
    ensures |r| == |date| && '/' !in r
    ensures forall i :: 0 <= i < |date| && date[i] != '/' ==> r[i] == date[i]
    ensures forall i :: 0 <= i < |date| && date[i] == '/' ==> r[i] == '-'
  {
    Replace(date, '/', '-')
  }

  /** A `java.time.LocalTime` reading. */
  datatype LocalTime = LocalTime(hour: nat, minute: nat, second: nat, nano: nat)

  /** The readings `LocalTime` can hold: the fields within their ranges. */
  predicate ValidTime(t: LocalTime) {
    t.hour < 24 && t.minute < 60 && t.second < 60 && t.nano < 1_000_000_000
  }

  /** The low `width` decimal digits of `n`, zero-padded. */
  function PadDigits(n: nat, width: nat): (r: string)
    ensures |r| == width && AllDigits(r)
  {
    if width == 0 then [] else PadDigits(n / 10, width - 1) + [DigitChar(n % 10)]
  }

  /** The fraction `LocalTime.toString` prints: 3, 6 or 9 digits, the fewest that show the nanoseconds exactly. */
  function FractionText(nano: nat): (r: string)
    ensures AllDigits(r) && |r| in {3, 6, 9}
  {
    if nano % 1_000_000 == 0 then PadDigits(nano / 1_000_000, 3)
    else if nano % 1000 == 0 then PadDigits(nano / 1000, 6)
    else PadDigits(nano, 9)
  }

  /** `HH:mm`, then `:ss` unless seconds and nanoseconds are both zero: `LocalTime.toString` up to the fraction. */
  function ClockText(t: LocalTime): (r: string)
    ensures forall i :: 0 <= i < |r| ==> IsDigit(r[i]) || r[i] == ':'
    ensures |r| >= 5 && r[2] == ':'
  {
    var hm := PadDigits(t.hour, 2) + ":" + PadDigits(t.minute, 2);
    if t.second == 0 && t.nano == 0 then hm else hm + ":" + PadDigits(t.second, 2)
  }

  /** `LocalTime.toString`: the clock text, then `.` and the fraction unless the nanoseconds are zero. */
  function LocalTimeText(t: LocalTime): (r: string)
    ensures '/' !in r
    ensures |r| >= 5 && r[2] == ':'
    ensures '.' in r <==> t.nano > 0
  {
    var clock := ClockText(t);
    assert '.' !in clock && '/' !in clock;
    if t.nano == 0 then clock
    else
      var r := clock + "." + FractionText(t.nano);
      assert r[|clock|] == '.';
      r
  }

  /** The time of day as the file name shows it: `:` becomes `-`, and everything from the first `.` is cut off. */
  function TimeToken(time: string): (r: string)
    ensures ':' !in r && '.' !in r
    ensures |r| <= |time|
    ensures forall i :: 0 <= i < |r| ==> r[i] == (if time[i] == ':' then '-' else time[i])
    ensures '.' !in time ==> |r| == |time|
    ensures |r| < |time| ==> time[|r|] == '.'
    ensures '/' !in time ==> '/' !in r
  {
    SubstringBefore(Replace(time, ':', '-'), '.')
  }

  /** The token of a text that is a point-free head, then nothing or a point and a tail, is the head with `:` replaced. */
  lemma TimeTokenOfHead(head: string, tail: string)
    requires '.' !in head
    ensures TimeToken(head) == Replace(head, ':', '-')
    ensures TimeToken(head + "." + tail) == Replace(head, ':', '-')
  {
    var h := Replace(head, ':', '-');
    assert '.' !in h;
    ReplaceConcat(head + ".", tail, ':', '-');
    ReplaceConcat(head, ".", ':', '-');
    assert Replace(".", ':', '-') == ".";
    assert Replace(head + "." + tail, ':', '-') == h + ['.'] + Replace(tail, ':', '-');
    SubstringBeforeFirst(h, '.', Replace(tail, ':', '-'));
  }

  /** The clock text with `:` replaced is `HH-mm`, with `-ss` unless seconds and nanoseconds are both zero. */
  lemma ClockTextReplaced(t: LocalTime)
    ensures Replace(ClockText(t), ':', '-') ==
      PadDigits(t.hour, 2) + "-" + PadDigits(t.minute, 2)
      + (if t.second == 0 && t.nano == 0 then "" else "-" + PadDigits(t.second, 2))
  {
    var hh, mm, ss := PadDigits(t.hour, 2), PadDigits(t.minute, 2), PadDigits(t.second, 2);
    assert ':' !in hh && ':' !in mm && ':' !in ss;
    ReplaceAbsent(hh, ':', '-');
    ReplaceAbsent(mm, ':', '-');
    ReplaceAbsent(ss, ':', '-');
    ReplaceConcat(hh, ":", ':', '-');
    ReplaceConcat(hh + ":", mm, ':', '-');
    assert Replace(":", ':', '-') == "-";
    if !(t.second == 0 && t.nano == 0) {
      ReplaceConcat(hh + ":" + mm, ":", ':', '-');
      ReplaceConcat(hh + ":" + mm + ":", ss, ':', '-');
    }
  }

  /** The token of a `LocalTime` is `HH-mm`, with `-ss` when its seconds or nanoseconds are not zero: the fraction of a second never reaches the file name. */
  lemma TimeTokenOfLocalTime(t: LocalTime)
    requires ValidTime(t)
    ensures TimeToken(LocalTimeText(t)) ==
      PadDigits(t.hour, 2) + "-" + PadDigits(t.minute, 2)
      + (if t.second == 0 && t.nano == 0 then "" else "-" + PadDigits(t.second, 2))
  {
    var clock := ClockText(t);
    assert '.' !in clock;
    TimeTokenOfHead(clock, if t.nano == 0 then "" else FractionText(t.nano));
    ClockTextReplaced(t);
  }

  /** `<company>--<start>--<end>--<time>.pdf`, the dates with `/` replaced by `-`. */
  function FileName(nameOfCompany: string, startDate: string, endDate: string, time: string): (name: string)
    ensures |name| == |nameOfCompany| + |startDate| + |endDate| + |TimeToken(time)| + 10
    ensures name[..|nameOfCompany|] == nameOfCompany
    ensures name[|name| - 4..] == ".pdf"
    ensures '/' !in time ==> forall i :: |nameOfCompany| <= i < |name| ==> name[i] != '/'
  {
    var start := SanitizeDate(startDate);
    var end := SanitizeDate(endDate);
    var token := TimeToken(time);
    var name := nameOfCompany + "--" + start + "--" + end + "--" + token + ".pdf";
    FileNameLayout(nameOfCompany, start, end, token);
    FileNameNoSlash(nameOfCompany, start, end, token);
    name
  }

  /** After the company, the file name holds `--`, the start date, `--`, the end date, `--` and the time token, in that order. */
  lemma FileNameParts(nameOfCompany: string, startDate: string, endDate: string, time: string)
    ensures var name := FileName(nameOfCompany, startDate, endDate, time);
      var c, s, e, t := |nameOfCompany|, |SanitizeDate(startDate)|, |SanitizeDate(endDate)|, |TimeToken(time)|;
      && name[c..c + 2] == "--"
      && name[c + 2..c + 2 + s] == SanitizeDate(startDate)
      && name[c + 2 + s..c + 4 + s] == "--"
      && name[c + 4 + s..c + 4 + s + e] == SanitizeDate(endDate)
      && name[c + 4 + s + e..c + 6 + s + e] == "--"
      && name[c + 6 + s + e..c + 6 + s + e + t] == TimeToken(time)
  {
    FileNameLayout(nameOfCompany, SanitizeDate(startDate), SanitizeDate(endDate), TimeToken(time));
  }

  /** Where each part of `<company>--<start>--<end>--<time>.pdf` sits. */
  lemma FileNameLayout(company: string, start: string, end: string, token: string)
    ensures var name := company + "--" + start + "--" + end + "--" + token + ".pdf";
      var c, s, e, t := |company|, |start|, |end|, |token|;
      && name[..c] == company
      && name[c..c + 2] == "--"
      && name[c + 2..c + 2 + s] == start
      && name[c + 2 + s..c + 4 + s] == "--"
      && name[c + 4 + s..c + 4 + s + e] == end
      && name[c + 4 + s + e..c + 6 + s + e] == "--"
      && name[c + 6 + s + e..c + 6 + s + e + t] == token
      && name[c + 6 + s + e + t..] == ".pdf"
  {
    var p1 := company + "--";
    var p2 := p1 + start;
    var p3 := p2 + "--";
    var p4 := p3 + end;
    var p5 := p4 + "--";
    var p6 := p5 + token;
    var name := p6 + ".pdf";
    SlicesOfPrefixes(name, p6, p5);
    SlicesOfPrefixes(name, p5, p4);
    SlicesOfPrefixes(name, p4, p3);
    SlicesOfPrefixes(name, p3, p2);
    SlicesOfPrefixes(name, p2, p1);
    SlicesOfPrefixes(name, p1, company);
  }

  /** Only the company part of `<company>--<start>--<end>--<time>.pdf` can hold a `/` the other parts lack. */
  lemma FileNameNoSlash(company: string, start: string, end: string, token: string)
    ensures var name := company + "--" + start + "--" + end + "--" + token + ".pdf";
      '/' !in start && '/' !in end && '/' !in token ==> forall i :: |company| <= i < |name| ==> name[i] != '/'
  {
    var p1 := company + "--";
    var p2 := p1 + start;
    var p3 := p2 + "--";
    var p4 := p3 + end;
    var p5 := p4 + "--";
    var p6 := p5 + token;
    var name := p6 + ".pdf";
    if '/' !in start && '/' !in end && '/' !in token {
      forall i | |company| <= i < |name| ensures name[i] != '/' {
        if i < |p1| {
          assert name[i] == p1[i];
        } else if i < |p2| {
          assert name[i] == p2[i] == start[i - |p1|];
        } else if i < |p3| {
          assert name[i] == p3[i];
        } else if i < |p4| {
          assert name[i] == p4[i] == end[i - |p3|];
        } else if i < |p5| {
          assert name[i] == p5[i];
        } else if i < |p6| {
          assert name[i] == p6[i] == token[i - |p5|];
        }
      }
    }
  }

  /** When `p` extends `q` and is a prefix of `s`, the part of `s` between them is the part `p` adds. */
  lemma SlicesOfPrefixes(s: string, p: string, q: string)
    requires |q| <= |p| <= |s| && p == s[..|p|] && q == p[..|q|]
    ensures q == s[..|q|]
    ensures s[|q|..|p|] == p[|q|..]
  {
  }

  /** Sum of the amounts of `es`, accumulated in list order. */
  function SumAmounts(es: seq<FormData>): int {
    if es == [] then 0 else SumAmounts(es[..|es| - 1]) + es[|es| - 1].amount
  }

  /** Sum of the incentives of `es`, accumulated in list order. */
  function SumIncentives(es: seq<FormData>): int {
    if es == [] then 0 else SumIncentives(es[..|es| - 1]) + es[|es| - 1].incentive
  }

  /** `partnerMetadata[partner]?.commission ?: 0`. */
  function CommissionOf(meta: map<string, PartnerMetaData>, partner: string): int {
    if partner in meta then meta[partner].commission else 0
  }

  /**
   * The remarks row: present whenever `partnerMetadata[partner]?.remarks != ""`, which
   * includes a partner without metadata, whose row then reads "".
   */
  function RemarksRow(meta: map<string, PartnerMetaData>, partner: string): (r: Option<string>)
    ensures r.None? <==> partner in meta && meta[partner].remarks == ""
    ensures partner !in meta ==> r == Some("")
    ensures partner in meta && r.Some? ==> r.value == meta[partner].remarks
  {
    if partner !in meta then Some("")
    else if meta[partner].remarks != "" then Some(meta[partner].remarks)
    else None
  }

  /** Row `i` is light grey exactly when `i` is odd: the shading starts with white. */
  function ShadeOf(i: nat): Shade {
    if i % 2 == 1 then LightGray else White
  }

  /** The entry row `createPdf` writes for `e` at position `i`. */
  function RowOf(e: FormData, i: nat): EntryRow {
    EntryRow(e.vehicleNumber, e.driverName, e.amount, e.incentive, ShadeOf(i))
  }

  /** What a partner's block must hold for that partner's entries and metadata. */
  ghost predicate RendersPartner(b: PartnerBlock, partner: string, es: seq<FormData>, meta: map<string, PartnerMetaData>) {
    && b.partnerName == partner
    && |b.rows| == |es|
    && (forall i :: 0 <= i < |es| ==> b.rows[i] == RowOf(es[i], i))
    && b.totalAmount == SumAmounts(es)
    && b.totalIncentives == SumIncentives(es)
    && b.totalCommission == CommissionOf(meta, partner)
    && b.payableAmount == SumAmounts(es) + SumIncentives(es) - CommissionOf(meta, partner)
    && b.remarks == RemarksRow(meta, partner)
  }

  /** One iteration of the outer `forEach`: the partner's table, with the running totals of its entries. */
  method RenderPartner(partner: string, es: seq<FormData>, meta: map<string, PartnerMetaData>) returns (block: PartnerBlock)
    ensures RendersPartner(block, partner, es, meta)
  {
    var rows: seq<EntryRow> := [];
    var totalAmount := 0;
    var totalIncentives := 0;
    var isGray := false;
    var i := 0;
    while i < |es|
      invariant 0 <= i <= |es|
      invariant |rows| == i
      invariant isGray <==> i % 2 == 1
      invariant forall j :: 0 <= j < i ==> rows[j] == RowOf(es[j], j)
      invariant totalAmount == SumAmounts(es[..i])
      invariant totalIncentives == SumIncentives(es[..i])
    {
      var e := es[i];
      var shade := if isGray then LightGray else White;
      isGray := !isGray;
      rows := rows + [EntryRow(e.vehicleNumber, e.driverName, e.amount, e.incentive, shade)];
      assert es[..i + 1][..i] == es[..i];
      totalAmount := totalAmount + e.amount;
      totalIncentives := totalIncentives + e.incentive;
      i := i + 1;
    }
    assert es[..i] == es;
    var commission := CommissionOf(meta, partner);
    block := PartnerBlock(partner, rows, totalAmount, totalIncentives, commission,
                          totalAmount + totalIncentives - commission, RemarksRow(meta, partner));
  }

  /** Sum of the partners' amount totals, in ledger order. */
  function GrandAmount(l: Ledger): int {
    if l == [] then 0 else GrandAmount(l[..|l| - 1]) + SumAmounts(l[|l| - 1].1)
  }

  /** Sum of the partners' incentive totals, in ledger order. */
  function GrandIncentives(l: Ledger): int {
    if l == [] then 0 else GrandIncentives(l[..|l| - 1]) + SumIncentives(l[|l| - 1].1)
  }

  /** Sum of the commissions of the partners in the ledger; metadata of other partners plays no part. */
  function GrandCommission(l: Ledger, meta: map<string, PartnerMetaData>): int {
    if l == [] then 0 else GrandCommission(l[..|l| - 1], meta) + CommissionOf(meta, l[|l| - 1].0)
  }

  /** Sum of the partners' payable amounts. */
  function SumPayables(l: Ledger, meta: map<string, PartnerMetaData>): int {
    if l == [] then 0
    else
      var (partner, es) := l[|l| - 1];
      SumPayables(l[..|l| - 1], meta) + (SumAmounts(es) + SumIncentives(es) - CommissionOf(meta, partner))
  }

  /** The grand payable of the summary equals the sum of the partners' payable rows. */
  lemma {:induction false} GrandPayableIsSumOfPayables(l: Ledger, meta: map<string, PartnerMetaData>)
    ensures GrandAmount(l) + GrandIncentives(l) - GrandCommission(l, meta) == SumPayables(l, meta)
  {
    if l != [] {
      GrandPayableIsSumOfPayables(l[..|l| - 1], meta);
    }
  }

  /** Metadata of a partner that has no entries in the ledger does not change the grand commission. */
  lemma {:induction false} GrandCommissionIgnoresAbsentPartners(l: Ledger, meta: map<string, PartnerMetaData>, partner: string, m: PartnerMetaData)
    requires partner !in Keys(l)
    ensures GrandCommission(l, meta[partner := m]) == GrandCommission(l, meta)
  {
    if l != [] {
      assert Keys(l[..|l| - 1]) == Keys(l)[..|l| - 1];
      GrandCommissionIgnoresAbsentPartners(l[..|l| - 1], meta, partner, m);
      assert l[|l| - 1].0 == Keys(l)[|l| - 1];
    }
  }

  /**
   * `createPdf`: the file name, the heading, one block per partner in the ledger's order,
   * and, unless the report is for one partner, a summary whose totals are the sums over
   * the ledger's partners.
   */
  method CreatePdf(request: ReportRequest, currentTime: LocalTime) returns (report: Report)
    ensures report.fileName == FileName(request.nameOfCompany, request.startDate, request.endDate, LocalTimeText(currentTime))
    ensures report.heading == Heading(request.nameOfCompany, !request.isIndividual)
    ensures report.startDate == request.startDate && report.endDate == request.endDate
    ensures |report.blocks| == |request.formDataMap|
    ensures forall i :: 0 <= i < |request.formDataMap| ==>
      RendersPartner(report.blocks[i], request.formDataMap[i].0, request.formDataMap[i].1, request.partnerMetadata)
    ensures report.summary.None? <==> request.isIndividual
    ensures report.summary.Some? ==> report.summary.value == Summary(
      GrandAmount(request.formDataMap), GrandIncentives(request.formDataMap),
      GrandCommission(request.formDataMap, request.partnerMetadata),
      SumPayables(request.formDataMap, request.partnerMetadata))
  {
    var l := request.formDataMap;
    var meta := request.partnerMetadata;
    var grandTotalAmount := 0;
    var grandTotalIncentives := 0;
    var grandTotalCommission := 0;
    var blocks: seq<PartnerBlock> := [];
    var i := 0;
    while i < |l|
      invariant 0 <= i <= |l|
      invariant |blocks| == i
      invariant forall j :: 0 <= j < i ==> RendersPartner(blocks[j], l[j].0, l[j].1, meta)
      invariant grandTotalAmount == GrandAmount(l[..i])
      invariant grandTotalIncentives == GrandIncentives(l[..i])
      invariant grandTotalCommission == GrandCommission(l[..i], meta)
    {
      var (partner, es) := l[i];
      var block := RenderPartner(partner, es, meta);
      blocks := blocks + [block];
      assert l[..i + 1][..i] == l[..i];
      grandTotalAmount := grandTotalAmount + block.totalAmount;
      grandTotalIncentives := grandTotalIncentives + block.totalIncentives;
      grandTotalCommission := grandTotalCommission + block.totalCommission;
      i := i + 1;
    }
    assert l[..i] == l;
    var summary: Option<Summary> := None;
    if !request.isIndividual {
      GrandPayableIsSumOfPayables(l, meta);
      summary := Some(Summary(grandTotalAmount, grandTotalIncentives, grandTotalCommission,
                              grandTotalAmount + grandTotalIncentives - grandTotalCommission));
    }
    report := Report(FileName(request.nameOfCompany, request.startDate, request.endDate, LocalTimeText(currentTime)),
                     Heading(request.nameOfCompany, !request.isIndividual),
                     request.startDate, request.endDate, blocks, summary);
  }

  /** A partner with two trips and a commission: subtotal, incentive and payable as the report shows them. */
  lemma TwoTripExample()
    ensures var es := [FormData("V1", "D1", 10000, 0), FormData("V2", "D2", 20000, 5000)];
      var meta := map["Acme" := PartnerMetaData(3000, "")];
      && SumAmounts(es) == 30000 && SumIncentives(es) == 5000
      && SumAmounts(es) + SumIncentives(es) - CommissionOf(meta, "Acme") == 32000
      && RemarksRow(meta, "Acme") == None
  {
    var es := [FormData("V1", "D1", 10000, 0), FormData("V2", "D2", 20000, 5000)];
    assert es[..1] == [FormData("V1", "D1", 10000, 0)];
    assert es[..1][..0] == [];
  }
}

=== FILE: store_properties.dfy ===
/**
 * Properties of the store transitions that relate several states: entry counts,
 * which invariants each transition keeps and which it does not, and what matching
 * entries by vehicle number means for edits and removals.
 */
module StoreProperties {
  import opened Common
  import opened LinkedMap
  import opened DataClasses
  import opened FormDataStore

  /** The number of entries over all partners. */
  function TotalEntries(l: Ledger): nat {
    if l == [] then 0 else |l[0].1| + TotalEntries(l[1..])
  }

  /** Rebinding a key changes the count by the difference of the two lists' lengths. */
  lemma {:induction false} PutTotal(l: Ledger, partner: string, v: seq<FormData>)
    ensures TotalEntries(Put(l, partner, v)) == TotalEntries(l) - |EntriesOf(l, partner)| + |v|
  {
    if l != [] && l[0].0 != partner {
      PutTotal(l[1..], partner, v);
      assert Put(l, partner, v)[1..] == Put(l[1..], partner, v);
    } else if l != [] {
      assert Put(l, partner, v)[1..] == l[1..];
    }
  }

  /** Unbinding a key lowers the count by the length of its list. */
  lemma {:induction false} RemoveTotal(l: Ledger, partner: string)
    ensures TotalEntries(Remove(l, partner)) == TotalEntries(l) - |EntriesOf(l, partner)|
  {
    if l != [] && l[0].0 != partner {
      RemoveTotal(l[1..], partner);
      assert Remove(l, partner)[1..] == Remove(l[1..], partner);
    }
  }

  /** Each successful `addFormData` adds exactly one entry to the ledger. */
  lemma AddFormDataAddsOneEntry(s: State, partner: string, entry: FormData)
    ensures TotalEntries(AddFormData(s, partner, entry).formData) == TotalEntries(s.formData) + 1
  {
    PutTotal(s.formData, partner, EntriesOf(s.formData, partner) + [entry]);
  }

  /** The entries of the partner sharing `v`, counted. */
  function CountVehicle(es: seq<FormData>, v: string): nat {
    if es == [] then 0 else (if es[0].vehicleNumber == v then 1 else 0) + CountVehicle(es[1..], v)
  }

  lemma {:induction false} WithoutVehicleLength(es: seq<FormData>, v: string)
    ensures |WithoutVehicle(es, v)| == |es| - CountVehicle(es, v)
  {
    if es != [] {
      WithoutVehicleLength(es[1..], v);
    }
  }

  /** `removeFormData` takes out exactly the partner's entries with that vehicle number. */
  lemma RemoveFormDataRemovesMatches(s: State, partner: string, entry: FormData)
    requires Valid(s)
    ensures TotalEntries(RemoveFormData(s, partner, entry).formData)
         == TotalEntries(s.formData) - CountVehicle(EntriesOf(s.formData, partner), entry.vehicleNumber)
  {
    var before := EntriesOf(s.formData, partner);
    var kept := WithoutVehicle(before, entry.vehicleNumber);
    WithoutVehicleLength(before, entry.vehicleNumber);
    var put := Put(s.formData, partner, kept);
    PutTotal(s.formData, partner, kept);
    if kept == [] {
      RemoveTotal(put, partner);
    }
  }

  /** Filtering keeps the order of the entries it keeps: it distributes over concatenation. */
  lemma {:induction false} WithoutVehicleConcat(a: seq<FormData>, b: seq<FormData>, v: string)
    ensures WithoutVehicle(a + b, v) == WithoutVehicle(a, v) + WithoutVehicle(b, v)
  {
    if a == [] {
      assert a + b == b;
    } else {
      assert (a + b)[1..] == a[1..] + b;
      WithoutVehicleConcat(a[1..], b, v);
    }
  }

  /** A binding found by `Get` is one of the map's pairs. */
  lemma {:induction false} GetIsBinding(l: Ledger, partner: string)
    requires Get(l, partner).Some?
    ensures (partner, Get(l, partner).value) in l
  {
    if l[0].0 != partner {
      GetIsBinding(l[1..], partner);
    }
  }

  /** Every pair after `put` is the new binding or an old pair. */
  lemma {:induction false} PutPairs(l: Ledger, partner: string, v: seq<FormData>)
    ensures forall b :: b in Put(l, partner, v) ==> b == (partner, v) || b in l
  {
    if l != [] && l[0].0 != partner {
      PutPairs(l[1..], partner, v);
    }
  }

  /** Every pair after `remove` is an old pair. */
  lemma {:induction false} RemovePairs(l: Ledger, partner: string)
    ensures forall b :: b in Remove(l, partner) ==> b in l
  {
    if l != [] && l[0].0 != partner {
      RemovePairs(l[1..], partner);
    }
  }

  /** No partner is bound to an empty list. */
  ghost predicate NoEmptyLists(l: Ledger) {
    forall b :: b in l ==> b.1 != []
  }

  /** Adding an entry never leaves an empty list behind. */
  lemma AddFormDataKeepsListsNonEmpty(s: State, partner: string, entry: FormData)
    requires NoEmptyLists(s.formData)
    ensures NoEmptyLists(AddFormData(s, partner, entry).formData)
  {
    PutPairs(s.formData, partner, EntriesOf(s.formData, partner) + [entry]);
  }

  /** A removal that empties a partner's list removes the partner, so no empty list is left. */
  lemma RemoveFormDataKeepsListsNonEmpty(s: State, partner: string, entry: FormData)
    requires Valid(s) && NoEmptyLists(s.formData)
    ensures NoEmptyLists(RemoveFormData(s, partner, entry).formData)
  {
    var kept := WithoutVehicle(EntriesOf(s.formData, partner), entry.vehicleNumber);
    var put := Put(s.formData, partner, kept);
    PutPairs(s.formData, partner, kept);
    RemovePairs(put, partner);
  }

  /** Editing a partner that has no entries binds it to an empty list. */
  lemma EditAbsentPartnerBindsEmptyList(s: State, partner: string, oldEntry: FormData, newEntry: FormData)
    requires Get(s.formData, partner) == None
    ensures Get(EditFormData(s, partner, oldEntry, newEntry).formData, partner) == Some([])
    ensures !NoEmptyLists(EditFormData(s, partner, oldEntry, newEntry).formData)
  {
    var r := EditFormData(s, partner, oldEntry, newEntry);
    GetIsBinding(r.formData, partner);
  }

  /** Every vehicle number that occurs in the ledger is in the vehicle set. */
  ghost predicate VehiclesCovered(s: State) {
    forall b, e :: b in s.formData && e in b.1 ==> e.vehicleNumber in s.vehicleSet
  }

  /** Adding keeps every recorded vehicle number in the set. */
  lemma AddFormDataKeepsVehiclesCovered(s: State, partner: string, entry: FormData)
    requires VehiclesCovered(s)
    ensures VehiclesCovered(AddFormData(s, partner, entry))
  {
    var before := EntriesOf(s.formData, partner);
    PutPairs(s.formData, partner, before + [entry]);
    if Get(s.formData, partner).Some? {
      GetIsBinding(s.formData, partner);
    }
    var r := AddFormData(s, partner, entry);
    forall b, e | b in r.formData && e in b.1 ensures e.vehicleNumber in r.vehicleSet {
      if b == (partner, before + [entry]) && e in before {
        assert (partner, before) in s.formData;
      }
    }
  }

  /**
   * Removing a vehicle from one partner drops it from the set even while another
   * partner still holds an entry for it.
   */
  lemma RemoveFormDataDropsSharedVehicle()
    ensures var e := FormData("V1", "D1", 100, 0);
      var s := State([("A", [e]), ("B", [e])], map["A" := PartnerMetaData(), "B" := PartnerMetaData()], {"V1"});
      var r := RemoveFormData(s, "A", e);
      VehiclesCovered(s) && Get(r.formData, "B") == Some([e]) && "V1" !in r.vehicleSet
  {
    var e := FormData("V1", "D1", 100, 0);
    var s := State([("A", [e]), ("B", [e])], map["A" := PartnerMetaData(), "B" := PartnerMetaData()], {"V1"});
    assert Get(s.formData, "B") == Some([e]);
    assert UniqueKeys(s.formData);
  }

  /**
   * Saving an unchanged entry is not a no-op when a second entry of the partner has the
   * same vehicle number: both become the edited entry.
   */
  lemma EditUnchangedEntryOverwritesSameVehicle()
    ensures var a := FormData("V1", "D1", 100, 0);
      var b := FormData("V1", "D2", 200, 0);
      var s := State([("A", [a, b])], map["A" := PartnerMetaData()], {"V1"});
      Get(EditFormData(s, "A", a, a).formData, "A") == Some([a, a])
  {
    var a := FormData("V1", "D1", 100, 0);
    var b := FormData("V1", "D2", 200, 0);
    assert Get([("A", [a, b])], "A") == Some([a, b]);
    assert ReplaceVehicle([a, b], "V1", a) == [a, a];
  }

  /**
   * Saving an unchanged entry leaves the partner's list as it was when every entry with
   * that vehicle number equals it, and leaves the vehicle set alone.
   */
  lemma EditUnchangedEntryKeepsList(s: State, partner: string, entry: FormData)
    requires Get(s.formData, partner).Some?
    requires forall e :: e in EntriesOf(s.formData, partner) && e.vehicleNumber == entry.vehicleNumber ==> e == entry
    ensures var r := EditFormData(s, partner, entry, entry);
      Get(r.formData, partner) == Get(s.formData, partner) && r.vehicleSet == s.vehicleSet
  {
    var es := EntriesOf(s.formData, partner);
    assert ReplaceVehicle(es, entry.vehicleNumber, entry) == es;
  }

  /** An edit whose old vehicle number matches no entry leaves a present partner's list as it was. */
  lemma EditWithoutMatchKeepsList(s: State, partner: string, oldEntry: FormData, newEntry: FormData)
    requires Get(s.formData, partner).Some?
    requires forall e :: e in EntriesOf(s.formData, partner) ==> e.vehicleNumber != oldEntry.vehicleNumber
    ensures Get(EditFormData(s, partner, oldEntry, newEntry).formData, partner) == Get(s.formData, partner)
  {
    var es := EntriesOf(s.formData, partner);
    assert ReplaceVehicle(es, oldEntry.vehicleNumber, newEntry) == es;
  }
}

=== FILE: text.dfy ===
/**
 * The string operations of the Kotlin standard library that the ledger uses:
 * `trim`, `isBlank`, `lowercase(Locale.ROOT)`, `replaceFirstChar`, `replace` and
 * `substringBefore`. Case mapping covers ASCII letters only.
 */
module Text {

  /** Kotlin's `Char.isWhitespace` restricted to ASCII: TAB..CR, FS..US and SPACE. */
  predicate IsWhitespace(c: char) {
    c == ' ' || ('\t' <= c <= '\r') || ('\U{1C}' <= c <= '\U{1F}')
  }

  /** `String.isBlank`: every character is whitespace (the empty string included). */
  predicate IsBlank(s: string) {
    forall i :: 0 <= i < |s| ==> IsWhitespace(s[i])
  }

  /** Neither end of `s` is whitespace. */
  predicate IsTrimmed(s: string) {
    s == [] || (!IsWhitespace(s[0]) && !IsWhitespace(s[|s| - 1]))
  }

  /** How many whitespace characters `s` starts with. */
  function LeadingBlanks(s: string): (n: nat)
    ensures n <= |s|
    ensures forall i :: 0 <= i < n ==> IsWhitespace(s[i])
    ensures n == |s| || !IsWhitespace(s[n])
  {
    if |s| > 0 && IsWhitespace(s[0]) then 1 + LeadingBlanks(s[1..]) else 0
  }

  /** How many whitespace characters `s` ends with. */
  function TrailingBlanks(s: string): (n: nat)
    ensures n <= |s|
    ensures forall i :: |s| - n <= i < |s| ==> IsWhitespace(s[i])
    ensures n == |s| || !IsWhitespace(s[|s| - n - 1])
  {
    if |s| > 0 && IsWhitespace(s[|s| - 1]) then 1 + TrailingBlanks(s[..|s| - 1]) else 0
  }

  /**
   * `String.trim()`: `s` without whitespace at either end. The result is a contiguous
   * piece of `s` that has only whitespace before and after it.
   */
  function Trim(s: string): (r: string)
    ensures IsTrimmed(r)
    ensures r == [] <==> IsBlank(s)
    ensures |r| <= |s|
  {
    var a := LeadingBlanks(s);
    var t := s[a..];
    t[..|t| - TrailingBlanks(t)]
  }

  /** `trim()` cuts blanks only: what it keeps is one stretch of the text, with nothing but blanks before and after. */
  lemma TrimKeepsInnerText(s: string)
    ensures var r := Trim(s);
      exists a :: 0 <= a <= |s| - |r| && r == s[a..a + |r|] && IsBlank(s[..a]) && IsBlank(s[a + |r|..])
  {
    var a := LeadingBlanks(s);
    var t := s[a..];
    var r := Trim(s);
    assert r == t[..|t| - TrailingBlanks(t)];
    assert r == s[a..a + |r|];
    assert IsBlank(s[..a]);
    assert s[a + |r|..] == t[|r|..];
    assert IsBlank(t[|r|..]);
  }

  lemma TrimOfTrimmed(s: string)
    requires IsTrimmed(s)
    ensures Trim(s) == s
  {
  }

  /** Trimming a trimmed word followed by a blank gives the word back. */
  lemma TrimTrailingBlank(w: string)
    requires w != [] && IsTrimmed(w)
    ensures Trim(w + " ") == w
  {
    var s := w + " ";
    assert LeadingBlanks(s) == 0;
    assert s[..|s| - 1] == w;
    assert TrailingBlanks(s) == 1 + TrailingBlanks(w);
    assert TrailingBlanks(w) == 0;
  }

  /** ASCII `lowercase(Locale.ROOT)` of one character. */
  function LowerChar(c: char): char {
    if 'A' <= c <= 'Z' then (c as int + 32) as char else c
  }

  /** ASCII `titlecase(Locale.ROOT)` of one lower-case character; other characters are kept. */
  function TitleChar(c: char): char {
    if 'a' <= c <= 'z' then (c as int - 32) as char else c
  }

  predicate IsLower(c: char) { 'a' <= c <= 'z' }

  predicate IsUpper(c: char) { 'A' <= c <= 'Z' }

  /** `String.lowercase(Locale.ROOT)`, character by character. */
  function Lowercase(s: string): (r: string)
    ensures |r| == |s|
    ensures forall i :: 0 <= i < |s| ==> r[i] == LowerChar(s[i])
    ensures forall i :: 0 <= i < |r| ==> !IsUpper(r[i])
    ensures forall i :: 0 <= i < |s| && !IsUpper(s[i]) ==> r[i] == s[i]
  {
    seq(|s|, i requires 0 <= i < |s| => LowerChar(s[i]))
  }

  /** Lower-casing twice is lower-casing once. */
  lemma LowercaseIdempotent(s: string)
    ensures Lowercase(Lowercase(s)) == Lowercase(s)
  {
    var r := Lowercase(s);
    assert forall i :: 0 <= i < |r| ==> Lowercase(r)[i] == r[i];
  }

  /** `replaceFirstChar { if (it.isLowerCase()) it.titlecase() else it.toString() }`. */
  function CapitalizeFirst(s: string): (r: string)
    ensures |r| == |s|
    ensures |s| > 0 ==> r[0] == TitleChar(s[0])
    ensures forall i :: 1 <= i < |s| ==> r[i] == s[i]
  {
    if s == [] then s else [TitleChar(s[0])] + s[1..]
  }

  /** Capitalising the first character is undone by lower-casing. */
  lemma LowercaseOfCapitalized(s: string)
    ensures Lowercase(CapitalizeFirst(s)) == Lowercase(s)
  {
    var c := CapitalizeFirst(s);
    assert forall i :: 0 <= i < |s| ==> Lowercase(c)[i] == LowerChar(c[i]) == LowerChar(s[i]);
  }

  /** `String.replace(from, to)` for single characters: every `from` becomes `to`. */
  function Replace(s: string, from: char, to: char): (r: string)
    ensures |r| == |s|
    ensures forall i :: 0 <= i < |s| ==> r[i] == (if s[i] == from then to else s[i])
    ensures from != to ==> from !in r
  {
    seq(|s|, i requires 0 <= i < |s| => if s[i] == from then to else s[i])
  }

  /** Replacing distributes over concatenation. */
  lemma ReplaceConcat(a: string, b: string, from: char, to: char)
    ensures Replace(a + b, from, to) == Replace(a, from, to) + Replace(b, from, to)
  {
    assert forall i :: 0 <= i < |a + b| ==> (a + b)[i] == if i < |a| then a[i] else b[i - |a|];
  }

  /** A string without `from` is left as it is. */
  lemma ReplaceAbsent(s: string, from: char, to: char)
    requires from !in s
    ensures Replace(s, from, to) == s
  {
  }

  /** `String.substringBefore(c)`: the prefix up to the first `c`, or all of `s` when there is none. */
  function SubstringBefore(s: string, c: char): (r: string)
    ensures |r| <= |s|
    ensures forall i :: 0 <= i < |r| ==> r[i] == s[i]
    ensures c !in r
    ensures |r| < |s| ==> s[|r|] == c
    ensures c !in s ==> r == s
  {
    if s == [] || s[0] == c then [] else [s[0]] + SubstringBefore(s[1..], c)
  }
}
